=== FILE: README.md ===
# Ianus attendance bot: a Dafny model

This project models the logic of a Telegram bot that records lecture attendance.
A participant registers once with `/reg` and chooses a subgroup with `/group`.
During a lecture slot the participant presses "✍️ Отметиться", retypes a
five-character captcha, and sends a round video performing a randomly drawn
instruction. The bot then stores one attendance record. Admins assemble filter
settings for an attendance export.

The model is functional. Users and attendance records are datatypes, and the
database is two sequences in primary-key order. Each handler is a pure function
from the current state to a new state and a reply that says what it means. The
clock and `random.choice` become inputs. The per-user conversation stage, which
the conversation handler keeps, is an explicit map.

Modules:

- `Outcomes` (outcomes.dfy): `Option` and `Result`.
- `Text` (text.dfy): the Python string behaviour the bot relies on.
  - `str.split` with a one-character separator, and `str.join`.
  - `str.upper`, as far as it can produce a captcha answer.
  - `int()` on user text, and `str()` on integers.
- `Schedule` (schedule.dfy): the slot table and `get_lecture_number`.
- `Challenges` (challenges.dfy): the captcha answer text and the on-camera instruction text.
- `Store` (store.dfy): the `users` and `attendance` tables and their constraints.
- `Registration` (registration.dfy): `/reg`, `/group`, the profile button and the other participant commands.
- `AttendanceFlow` (attendance_flow.dfy): the attendance conversation and its invariant.
- `Admin` (admin.dfy): the export settings, their summary, the admin filter and the upload conversation.
- `AdminExamples` (admin_examples.dfy): the lecture filter worked through on the format its prompt shows, `"1-4, 7, 8-10"`.

What the code does in a few cases worth knowing:

- **No restart.** Pressing the start button again during a running conversation
  does not restart it. The conversation handler has no re-entry, so in the
  captcha stage the button text is checked as an answer and fails. In the video
  stage it is "text instead of video". Both end the conversation
  (`AttendanceFlow.MarkButtonDuringCaptcha`, `AttendanceFlow.MarkButtonDuringChallenge`).
- **Stale solutions are kept.** The captcha and instruction maps are never
  cleared, because the deleting lines are commented out. Stale entries therefore
  stay (`AttendanceFlow.SolutionsAreNeverCleared`).
- **No timeout.** No conversation has a timeout, so nothing expires.
- **Outside every slot, the commit fails.** `verify_challenge` does not check
  the slot again before building the record. With no active slot the record
  gets no lecture number, and the commit violates the column's NOT NULL
  constraint. The handler then raises. No record is written (the proof video
  downloaded before the commit stays in data/proofs) and the stage stays as it
  was. The bot's single module-level session is not rolled back after
  that failed commit, so in the running bot every later database query, in
  every handler, raises until the bot restarts. The model does not follow the
  bot past that point (see "Database session" below).

## Model

| member | source | states |
|---|---|---|
| Text.Split | bot/admin.py:191 | splitting on a character gives one piece more than the text has separators, and no piece contains the separator |
| Text.JoinSplitReplaces | bot/admin.py:140 | joining the pieces of a split with another separator is replacing every occurrence of the split character by that separator |
| Text.JoinSplit | bot/admin.py:248 | joining the pieces of a split with the separator gives the original text back, so splitting loses nothing |
| Text.SplitJoin | bot/admin.py:217 | separator-free pieces, joined and split again, come back unchanged |
| Text.UpperFixesCapitals | bot/attendance.py:77 | upper-casing leaves a text of ASCII capitals and digits unchanged |
| Text.UpperOfLower | bot/attendance.py:77 | upper-casing undoes lower-casing on a text of ASCII capitals and digits |
| Text.NatToString | bot/admin.py:220 | `str` of a non-negative number is a non-empty run of decimal digits with no leading zero: it starts with '0' exactly when the number is 0 |
| Text.DigitsValueOfNat | bot/admin.py:218-220 | reading back the digits `str` wrote gives the number |
| Text.ParseInt | bot/admin.py:271 | `int()` of a text without a minus sign is never negative |
| Text.ParseNumber | bot/admin.py:271 | after stripping, a number read as negative always comes from a leading minus sign |
| Text.ParseIntOfString | bot/admin.py:218 | `int()` reads back what `str()` writes, for every integer, with any ASCII white space around it |
| Schedule.LectureNumber | bot/captcha.py:16-21 | a result n lies in 1..number of slots and slot n holds the time, and no earlier slot does; the result is none exactly when no slot holds the time |
| Schedule.FirstFrom | bot/captcha.py:17-19 | scanning from position k finds the first slot at or after k holding the time, or none if there is no such slot |
| Schedule.LectureNumberIsFirstHit | bot/captcha.py:17-19 | any slot that holds the time, with no earlier slot holding it, is the one returned |
| Schedule.EndIsExcluded | bot/captcha.py:18 | slots are half-open: the end instant of slot n never resolves to n |
| Schedule.AscendingResolvesExactly | bot/captcha.py:16-21 | for a table of ascending, non-overlapping slots, the resolver answers n if and only if slot n holds the time |
| Challenges.CaptchaText | bot/captcha.py:25 | the answer has exactly 5 characters, each the alphabet character at the drawn position |
| Challenges.EveryAnswerIsDrawable | bot/captcha.py:25 | every 5-character text over the alphabet is produced by some draw |
| Challenges.AnswerMatchesInAnyCase | bot/captcha.py:25 | an answer has no lower-case letter, and upper-casing maps both the answer and its lower-case spelling to the answer |
| Challenges.ChallengeTextInjective | bot/attendance.py:78-81 | when the actions contain no asterisk, the instruction text determines the action and the phrase it was built from |
| Challenges.DrawChallenge | bot/attendance.py:78-81 | the instruction is the template filled with one action and one phrase taken from the two pools |
| Store.EmptyIsValid | database/models.py:10-32 | the empty database meets every table constraint |
| Store.UserIndex | bot/default.py:58 | the lookup by Telegram id finds a user with that id, finds none exactly when no user has that id, and under the constraints the user it finds is the only one |
| Store.FindUser | bot/default.py:58 | the user found has the requested Telegram id and sits at the position its primary key names; none is found exactly when the id is unregistered |
| Store.InsertUser | database/models.py:13-18 | a new Telegram id appends exactly one user, with the next primary key and subgroup 0, and keeps the constraints; an id already present violates the unique constraint and writes nothing |
| Store.InsertAttendance | database/models.py:26-32 | a missing lecture number violates NOT NULL and writes nothing; otherwise exactly one record with the next primary key is appended and the constraints hold |
| Store.RecordsOf | database/models.py:20 | the records kept are exactly the table's records of that user |
| Store.UserAttendances | database/models.py:20 | a user's attendances are exactly that user's records, in ascending record-id order |
| Store.FilterKeepsOrder | database/models.py:20 | filtering a table whose ids ascend keeps the ids ascending |
| Registration.Reg | bot/default.py:43-86 | a word count other than 3 changes nothing; a new Telegram id creates one user (subgroup 0) with the three names; a known id changes only that user's three names and reports the old and new full name; the constraints are kept |
| Registration.GroupArgsOkExactly | bot/default.py:95 | the argument check passes exactly for the single argument "1" or "2" |
| Registration.Group | bot/default.py:89-117 | invalid arguments, or an unregistered user, change nothing; otherwise only that user's subgroup changes, to the chosen number |
| Registration.Profile | bot/default.py:120-137 | the profile is shown exactly when the user is registered, and it is that user's stored row |
| Registration.Handle | bot/default.py:147-156 | start, help, profile and cancel never modify the store, and no command breaks the table constraints |
| Registration.RegNeverDuplicates | bot/default.py:58-82 | re-registering adds no user, and the Telegram ids stay pairwise distinct |
| Registration.ReRegistrationKeepsIdentity | bot/default.py:62-68 | re-registering keeps the user's id, Telegram id and subgroup |
| AttendanceFlow.StartAttendance | bot/attendance.py:37-62 | an unregistered user is refused first, and then a moment outside every slot is refused; neither changes anything; otherwise only this user's captcha entry is (over)written with a well-formed answer and the stage becomes CAPTCHA |
| AttendanceFlow.VerifyCaptcha | bot/attendance.py:65-94 | the conversation moves on exactly when the upper-cased input equals the stored answer, and a missing answer matches nothing; a match stores the drawn instruction for this user only; a mismatch ends with nothing stored |
| AttendanceFlow.VerifyChallenge | bot/attendance.py:97-136 | for a registered user with a stored instruction, during a slot, exactly one record is appended: the stored instruction, the user's id, the submission moment, the slot resolved at that moment and a proof key made from the Telegram id and that moment; the conversation then ends; in every other case nothing changes and the handler fails |
| AttendanceFlow.NoVideo | bot/attendance.py:139-151 | text instead of a video ends the conversation and changes nothing |
| AttendanceFlow.Cancel | bot/attendance.py:154-159 | cancel ends the conversation and changes nothing |
| AttendanceFlow.UpdateStage | bot/attendance.py:162-177 | END removes the user's stage, a returned state sets it, a raised handler keeps it, and other users' stages are untouched |
| AttendanceFlow.Step | bot/attendance.py:162-177 | an update from one user never adds or removes another user's conversation |
| AttendanceFlow.Initial | bot/attendance.py:22-26 | the empty start state satisfies the invariant |
| AttendanceFlow.StartKeepsInv | bot/attendance.py:51-52 | starting keeps the invariant: stored captcha answers are well-formed |
| AttendanceFlow.VerifyCaptchaKeepsInv | bot/attendance.py:77-83 | the captcha check keeps the invariant: stored instructions come from the pools |
| AttendanceFlow.VerifyChallengeKeepsInv | bot/attendance.py:101-119 | the video step keeps the invariant: every record's lecture is the slot its timestamp resolves to, its instruction comes from the pools, and its user exists |
| AttendanceFlow.StepKeepsInv | bot/attendance.py:162-177 | every update of the attendance conversation keeps the invariant |
| Registration.HandleKeepsIdentities | bot/default.py:43-117 | `/reg` and `/group` never remove a user, never change a user's Telegram id and never touch the attendance table |
| AttendanceFlow.IdentitiesKeepInv | database/models.py:20-32 | any valid database that keeps every user's Telegram id and every record keeps the invariant: stages still belong to registered users and records still name their user and proof key |
| AttendanceFlow.RegistrationKeepsInv | bot/default.py:43-156 | the participant commands, which share the database with the conversation, keep the invariant too |
| AttendanceFlow.StepAppendsAtMostOne | bot/attendance.py:111-119 | the attendance table only grows, by at most one record per update and without touching the users; it grows exactly on a video note in the CHALLENGE stage during a slot |
| AttendanceFlow.SolutionsAreNeverCleared | bot/attendance.py:75-135 | no update removes a captcha or instruction entry, and other users' entries never change |
| AttendanceFlow.NoSecondRecord | bot/attendance.py:136 | after a confirmed proof, a second video note is not handled and writes nothing |
| AttendanceFlow.MarkButtonIsNoAnswer | bot/attendance.py:77 | the upper-cased start-button text is never a captcha answer |
| AttendanceFlow.NonAnswerEndsCaptcha | bot/attendance.py:77-94 | text that cannot upper-case to an answer ends the captcha stage with nothing stored |
| AttendanceFlow.MarkButtonDuringCaptcha | bot/attendance.py:163-170 | the start button during the captcha stage is checked as an answer, fails and ends the conversation |
| AttendanceFlow.MarkButtonDuringChallenge | bot/attendance.py:171-174 | the start button during the video stage counts as text instead of a video and ends the conversation |
| AttendanceFlow.MarkingScenario | bot/attendance.py:37-136 | the button, then the answer typed in lower case, then a video write exactly one record; its slot is resolved when the video arrives and its instruction is the one issued after the captcha |
| Admin.Wipe | bot/admin.py:39-46 | whatever they held before, all four filters become unset |
| Admin.GetDays | bot/admin.py:189-191 | one entry per comma-separated segment, each being that segment split on dashes: one piece more than the segment has dashes (an empty segment gives one empty piece), and no piece holds a dash; joining back gives the text; nothing else changes |
| Admin.GetUsers | bot/admin.py:246-248 | one untrimmed entry per comma-separated segment; joining back gives the text; nothing else changes |
| Admin.GetSubgroup | bot/admin.py:270-271 | the subgroup becomes the number `int()` reads; text it cannot read raises and changes nothing |
| Admin.GetSubgroupReadsNumber | bot/admin.py:271 | any number written by `str()` is stored as that number |
| Admin.Range | bot/admin.py:222 | `range(a, b)` holds b - a consecutive numbers from a upward, or none when a >= b |
| Admin.PartLectures | bot/admin.py:218-222 | a single number n contributes exactly n; a pair a-b contributes a..b ascending, inclusive, and nothing when a > b; three or more numbers contribute nothing |
| Admin.AllLecturesAppend | bot/admin.py:217-224 | the parts' contributions are concatenated in input order, duplicates kept |
| Admin.ParseAll | bot/admin.py:218 | the numbers are read one per text in order; the whole reading fails exactly when one text is not a number |
| Admin.PartNumbers | bot/admin.py:218 | the numbers read from one part are never negative, because its pieces are split on dashes |
| Admin.ParseParts | bot/admin.py:217-218 | every part's dash-separated numbers are read, and all are non-negative; the reading fails exactly when some part holds a text that is not a number |
| Admin.LecturesNonNegative | bot/admin.py:218-222 | expanding non-negative numbers yields non-negative numbers |
| Admin.GetLectures | bot/admin.py:213-224 | if any piece is not a number, the handler raises and changes nothing; otherwise only the lecture filter is set, to the expansion of the parts in input order (ranges inclusive) written with `str()`, each a run of plain digits |
| Admin.UploadSummary | bot/admin.py:136-158 | the summary always starts with the settings header and ends with the check-settings warning |
| Admin.DaysSummary | bot/admin.py:139-142 | after the days are set, the days line shows the operator's text with ", " for every comma, and the other lines are unchanged |
| Admin.LecturesSummary | bot/admin.py:144-147 | after the lectures are set, the lectures line lists the expanded numbers joined with ", ", or says "все доступные" when the expansion is empty (reversed ranges, or parts of three or more numbers); the other lines are unchanged |
| Admin.UsersSummary | bot/admin.py:149-152 | after the people are set, the people line shows the operator's text with ", " for every comma, and the other lines are unchanged |
| Admin.SubgroupSummary | bot/admin.py:153-156 | after the subgroup is set to a number, the subgroup line shows it as `str()` writes it, or "обе" when it is 0; the other lines are unchanged |
| Admin.WipeSummary | bot/admin.py:136-158 | right after the wipe, the summary shows every filter as unset |
| Admin.UnsetSummary | bot/admin.py:136-158 | with no filter set (None, an empty list, or subgroup 0), the summary says "все доступные" for days, lectures and people and "обе" for the subgroup |
| Admin.AdminCommand | bot/admin.py:17-19 | `/admin` shows the panel exactly to users in the admin set |
| Admin.UploadAttendance | bot/admin.py:161-173 | the settings are wiped only for the button that opens the upload menu; the summary of the resulting settings is shown, and the stage becomes WAIT |
| Admin.Step | bot/admin.py:313-342 | an update from one operator never changes another operator's stage |
| Admin.WipeOnlyOnEntry | bot/admin.py:313-342 | outside the conversation only the opening button is handled, and it wipes the shared settings; in the menu stage no update changes the settings |
| Admin.ReturnKeepsSettings | bot/admin.py:338-342 | "return" from any stage shows the unchanged settings and goes back to the menu; the opening button is not handled during the conversation |
| Admin.SettingStagesStayOpen | bot/admin.py:325-336 | text in a settings stage keeps the stage and sets that stage's filter, or leaves the settings alone when the handler raises |
| AdminExamples.GetLecturesExample | bot/admin.py:205-206 | the format the prompt shows, "1-4, 7, 8-10", sets the lecture filter to 1, 2, 3, 4, 7, 8, 9 and 10 |

## Left out

- **Transport.** Telegram is not modelled: deleting, editing and replying to
  messages, the keyboards, the message-id maps (`CAPTCHA_MESSAGES`,
  `CHALLENGE_MESSAGES`, `CURRENT_MSG`), and the bot and application startup.
  Replies are reduced to what they report.
- **Clock.** The clock and the time zone (`get_current_time`, pytz) are left
  out. The handlers receive the current moment as a day number plus a time of
  day in microseconds.
- **Randomness.** The `random.choice` draws are inputs: captcha positions, an
  action index and a phrase index.
- **Slot table and pools.** The slot table and the instruction pools come from
  config.py, which is not part of this model. They are parameters.
- **Captcha image.** The image rendering and its noise are left out: they are
  PIL drawing.
- **Video files.** The video download and the stored-video lookup (`get_video`
  and its conversation) are left out: they are file-system work. The proof file
  name is kept only as the data it is made from (Telegram id and moment). Its
  `strftime` layout is not modelled.
- **The export.** `start_upload_attendance` has an empty body. The model takes
  the stage unchanged and replies with nothing. There is no query or export to
  model.
- **Database session.** SQLAlchemy sessions and engine setup are left out. The
  store is in memory. The bot uses one module-level session and never rolls it
  back, so after the failed commit of a slot-less video note every later
  database query in every handler raises until the bot restarts. The model
  keeps working after that step: any sequence of steps that follows a
  slot-less video note describes a bot the real one no longer is.
- **String lengths.** The `String(30)` and `String(50)` column lengths are not
  enforced by SQLite, so they are left out.
- **Concurrency.** Concurrent handling and cross-handler precedence are left
  out: one update is processed at a time. So is the interplay between the
  handler lists of different modules, for example an admin in a settings stage
  whose text could also match another handler.
- **Conversation key.** Both conversation handlers keep their stage per chat
  and user. The model keys stages, and the captcha and instruction maps, by the
  user alone. This assumes private chats, where the chat id equals the user id.
  A user running a conversation in two chats at once is not modelled.
- **Callback patterns.** The callback-data patterns are taken as exact matches.
  Python's `$` would also accept a final newline, but callback data only comes
  from the bot's own keyboards. The start button's text filter does model the
  final newline.
- Text.Upper: covers ASCII letters plus the characters whose full upper-case
  form is ASCII only (ı, ſ, ß and the Latin ligatures). Every other character
  is kept as it is. Only such characters can upper-case into a captcha answer,
  so which inputs match is unaffected.
- Text.ParseInt: covers ASCII white space (tab to carriage return, and the
  space), an optional sign and ASCII digits.
  Python's `int()` also accepts underscores between digits, non-ASCII digits
  and non-ASCII white space. Those inputs are read as "not a number" here.
- Registration.Group: `isdigit` is taken as ASCII digits. The test that follows
  it accepts only "1" and "2" anyway.
- AttendanceFlow.VerifyChallenge: the Telegram calls after the commit (the
  Markdown reply and the message deletion) are assumed to succeed. The reply
  carries the user's own names with `parse_mode='Markdown'`. A name with an
  unpaired `_`, `*` or backtick makes Telegram reject it, and the handler then
  raises after the record is committed. The stage stays CHALLENGE, and each
  further video note commits another record. The model always ends the
  conversation after the append.
- AttendanceFlow.NoSecondRecord: holds only under the same assumption that the
  reply after the commit succeeds. With a name Telegram's Markdown parser
  rejects, the stage stays CHALLENGE and a second video note writes a second
  record.
- AttendanceFlow.VerifyChallenge: a missing user row, or a missing stored instruction,
  would raise in the source before the commit. Both are modelled as a failed
  handler that changes nothing. Under the invariant neither can happen.
- Admin.Step: the entry point of the upload conversation has no admin filter.
  Only `/admin`, which shows the button, is filtered. The model follows this;
  it does not model who can see the button.

=== FILE: admin.dfy ===
/** The attendance-export settings of bot/admin.py: the shared settings
    dictionary, the four handlers that fill it from operator text, its reset,
    the summary shown to the operator, the admin filter and the upload
    conversation that ties them together. The export itself does nothing in
    the source and is modelled as doing nothing. */
module Admin {
  import opened Outcomes
  import opened Text

  /** `UPLOAD_SETTINGS`: one dictionary shared by every operator; a filter is
      `None` until an operator sets it. */
  datatype UploadSettings = UploadSettings(
    days: Option<seq<seq<string>>>,
    lectures: Option<seq<string>>,
    users: Option<seq<string>>,
    subgroup: Option<int>)

  /** Python truthiness of a list-valued setting: `None` and `[]` are false. */
  predicate IsSet<T>(v: Option<seq<T>>)
  {
    v.Some? && |v.value| > 0
  }

  /** Python truthiness of the subgroup: `None` and `0` are false. */
  predicate SubgroupIsSet(v: Option<int>)
  {
    v.Some? && v.value != 0
  }

  /** `wipe_upload_settings`: every filter is reset to `None`, whatever it was. */
  function Wipe(s: UploadSettings): (r: UploadSettings)
    ensures r.days.None? && r.lectures.None? && r.users.None? && r.subgroup.None?
    ensures !IsSet(r.days) && !IsSet(r.lectures) && !IsSet(r.users) && !SubgroupIsSet(r.subgroup)
  {
    UploadSettings(None, None, None, None)
  }

  /** `sep.join` applied to each list of a list of lists. */
  function JoinEach(xss: seq<seq<string>>, sep: string): (r: seq<string>)
    ensures |r| == |xss|
    ensures forall i :: 0 <= i < |xss| ==> r[i] == Join(xss[i], sep)
  {
    seq(|xss|, i requires 0 <= i < |xss| => Join(xss[i], sep))
  }

  /** `s.split(sep)` applied to each text of a list. */
  function SplitEach(parts: seq<string>, sep: char): (r: seq<seq<string>>)
    ensures |r| == |parts|
    ensures forall i :: 0 <= i < |parts| ==> r[i] == Split(parts[i], sep)
  {
    seq(|parts|, i requires 0 <= i < |parts| => Split(parts[i], sep))
  }

  /** `get_days`: the text split on commas, each segment split on dashes, with
      no trimming and no date checking. Nothing is lost: joining back gives
      the operator's text. */
  function GetDays(s: UploadSettings, text: string): (r: UploadSettings)
    ensures r.days.Some? && |r.days.value| == Count(text, ',') + 1
    ensures forall i :: 0 <= i < |r.days.value| ==> Join(r.days.value[i], "-") == Split(text, ',')[i]
    ensures forall i :: 0 <= i < |r.days.value| ==> |r.days.value[i]| == Count(Split(text, ',')[i], '-') + 1
    ensures forall i, k :: 0 <= i < |r.days.value| && 0 <= k < |r.days.value[i]| ==> '-' !in r.days.value[i][k]
    ensures Join(JoinEach(r.days.value, "-"), ",") == text
    ensures r.(days := s.days) == s
  {
    var parts := Split(text, ',');
    var days := SplitEach(parts, '-');
    assert JoinEach(days, "-") == parts by {
      forall i | 0 <= i < |parts|
        ensures JoinEach(days, "-")[i] == parts[i]
      {
        JoinSplit(parts[i], '-');
      }
    }
    JoinSplit(text, ',');
    s.(days := Some(days))
  }

  /** `get_users`: one entry per comma-separated segment, untrimmed; joining
      back gives the operator's text. */
  function GetUsers(s: UploadSettings, text: string): (r: UploadSettings)
    ensures r.users.Some? && |r.users.value| == Count(text, ',') + 1
    ensures forall i :: 0 <= i < |r.users.value| ==> ',' !in r.users.value[i]
    ensures Join(r.users.value, ",") == text
    ensures r.(users := s.users) == s
  {
    JoinSplit(text, ',');
    s.(users := Some(Split(text, ',')))
  }

  /** Why a handler raised. */
  datatype InputError = NotANumber

  /** `get_subgroup`: `int()` of the text; text that is not a number raises
      and the settings stay as they were. */
  function GetSubgroup(s: UploadSettings, text: string): (r: Result<UploadSettings, InputError>)
    ensures r.Err? <==> ParseInt(text).None?
    ensures r.Err? ==> r == Err(NotANumber)
    ensures r.Ok? ==> r.value == s.(subgroup := Some(ParseInt(text).value))
  {
    match ParseInt(text)
    case None => Err(NotANumber)
    case Some(n) => Ok(s.(subgroup := Some(n)))
  }

  /** A number written by `str()` is read back by `get_subgroup`. */
  lemma GetSubgroupReadsNumber(s: UploadSettings, n: int)
    ensures GetSubgroup(s, IntToString(n)) == Ok(s.(subgroup := Some(n)))
  {
    ParseIntOfString(n, "", "");
    assert "" + IntToString(n) + "" == IntToString(n);
  }

  /** Python's `range(a, b)`. */
  function Range(a: int, b: int): (r: seq<int>)
    ensures |r| == if a <= b then b - a else 0
    ensures forall k :: 0 <= k < |r| ==> r[k] == a + k
    decreases b - a
  {
    if a >= b then [] else [a] + Range(a + 1, b)
  }

  /** The lecture numbers one comma-separated part contributes: a single
      number itself, a pair every number from the first to the second
      inclusive (none when the first is larger), and any other count nothing. */
  function PartLectures(numbers: seq<int>): (r: seq<int>)
    ensures |numbers| == 1 ==> r == [numbers[0]]
    ensures |numbers| == 2 ==> |r| == (if numbers[0] <= numbers[1] then numbers[1] - numbers[0] + 1 else 0)
    ensures |numbers| == 2 ==> forall k :: 0 <= k < |r| ==> r[k] == numbers[0] + k
    ensures |numbers| != 1 && |numbers| != 2 ==> r == []
  {
    if |numbers| == 1 then [numbers[0]]
    else if |numbers| == 2 then Range(numbers[0], numbers[1] + 1)
    else []
  }

  /** The lecture numbers of all parts, part after part, duplicates kept. */
  function AllLectures(parts: seq<seq<int>>): seq<int>
  {
    if |parts| == 0 then [] else PartLectures(parts[0]) + AllLectures(parts[1..])
  }

  /** Expansion respects the order of parts: the numbers of a longer input
      are those of its beginning followed by those of its end. */
  lemma {:induction false} AllLecturesAppend(xs: seq<seq<int>>, ys: seq<seq<int>>)
    ensures AllLectures(xs + ys) == AllLectures(xs) + AllLectures(ys)
  {
    if |xs| > 0 {
      assert (xs + ys)[1..] == xs[1..] + ys;
      AllLecturesAppend(xs[1..], ys);
    } else {
      assert xs + ys == ys;
    }
  }

  /** `int()` of every text in the list, or `None` at the first failure. */
  function ParseAll(texts: seq<string>): (r: Option<seq<int>>)
    ensures r.Some? ==> |r.value| == |texts| && forall i :: 0 <= i < |texts| ==> ParseInt(texts[i]) == Some(r.value[i])
    ensures r.None? <==> exists i :: 0 <= i < |texts| && ParseInt(texts[i]).None?
  {
    if |texts| == 0 then Some([])
    else match ParseInt(texts[0])
      case None => None
      case Some(n) =>
        (match ParseAll(texts[1..])
         case None =>
           ReadFailsLater(texts);
           None
         case Some(ns) =>
           ReadCons(texts, n, ns);
           Some([n] + ns))
  }

  /** A failure after the first text is a failure of the whole list. */
  lemma ReadFailsLater(texts: seq<string>)
    requires |texts| > 0
    requires exists i :: 0 <= i < |texts| - 1 && ParseInt(texts[1..][i]).None?
    ensures exists i :: 0 <= i < |texts| && ParseInt(texts[i]).None?
  {
    var j :| 0 <= j < |texts| - 1 && ParseInt(texts[1..][j]).None?;
    assert texts[1..][j] == texts[j + 1];
  }

  /** The number of the first text followed by those of the rest. */
  lemma ReadCons(texts: seq<string>, n: int, ns: seq<int>)
    requires |texts| > 0 && ParseInt(texts[0]) == Some(n)
    requires |ns| == |texts| - 1 && forall i :: 0 <= i < |ns| ==> ParseInt(texts[1..][i]) == Some(ns[i])
    ensures forall i :: 0 <= i < |texts| ==> ParseInt(texts[i]) == Some(([n] + ns)[i])
  {
    forall i | 1 <= i < |texts|
      ensures ParseInt(texts[i]) == Some(([n] + ns)[i])
    {
      assert texts[i] == texts[1..][i - 1];
    }
  }

  /** `list(map(int, part.split('-')))` for one comma-separated part; the
      pieces hold no dash, so no number read is negative. */
  function PartNumbers(part: string): (r: Option<seq<int>>)
    ensures r.Some? ==> forall k :: 0 <= k < |r.value| ==> r.value[k] >= 0
  {
    var r := ParseAll(Split(part, '-'));
    if r.Some? then PiecesNonNegative(part, r.value); r else r
  }

  /** `list(map(int, part.split('-')))` for every comma-separated part. */
  function ParseParts(parts: seq<string>): (r: Option<seq<seq<int>>>)
    ensures r.Some? ==> |r.value| == |parts|
    ensures r.Some? ==> forall i :: 0 <= i < |parts| ==> PartNumbers(parts[i]) == Some(r.value[i])
    ensures r.Some? ==> forall i, k :: 0 <= i < |parts| && 0 <= k < |r.value[i]| ==> r.value[i][k] >= 0
    ensures r.None? <==> exists i :: 0 <= i < |parts| && PartNumbers(parts[i]).None?
  {
    if |parts| == 0 then Some([])
    else match PartNumbers(parts[0])
      case None => None
      case Some(n) =>
        (match ParseParts(parts[1..])
         case None =>
           PartFailsLater(parts);
           None
         case Some(ns) =>
           PartsCons(parts, n, ns);
           NonNegativeCons(n, ns);
           Some([n] + ns))
  }

  /** A failure after the first part is a failure of the whole list. */
  lemma PartFailsLater(parts: seq<string>)
    requires |parts| > 0
    requires exists i :: 0 <= i < |parts| - 1 && PartNumbers(parts[1..][i]).None?
    ensures exists i :: 0 <= i < |parts| && PartNumbers(parts[i]).None?
  {
    var j :| 0 <= j < |parts| - 1 && PartNumbers(parts[1..][j]).None?;
    assert parts[1..][j] == parts[j + 1];
  }

  /** The numbers of the first part followed by those of the rest. */
  lemma PartsCons(parts: seq<string>, n: seq<int>, ns: seq<seq<int>>)
    requires |parts| > 0 && PartNumbers(parts[0]) == Some(n)
    requires |ns| == |parts| - 1 && forall i :: 0 <= i < |ns| ==> PartNumbers(parts[1..][i]) == Some(ns[i])
    ensures forall i :: 0 <= i < |parts| ==> PartNumbers(parts[i]) == Some(([n] + ns)[i])
  {
    forall i | 1 <= i < |parts|
      ensures PartNumbers(parts[i]) == Some(([n] + ns)[i])
    {
      assert parts[i] == parts[1..][i - 1];
    }
  }

  /** Putting non-negative numbers in front keeps every list non-negative. */
  lemma NonNegativeCons(n: seq<int>, ns: seq<seq<int>>)
    requires forall k :: 0 <= k < |n| ==> n[k] >= 0
    requires forall i, k :: 0 <= i < |ns| && 0 <= k < |ns[i]| ==> ns[i][k] >= 0
    ensures forall i, k :: 0 <= i < |[n] + ns| && 0 <= k < |([n] + ns)[i]| ==> ([n] + ns)[i][k] >= 0
  {
  }

  /** The pieces of a part are split on '-', so none reads as negative. */
  lemma PiecesNonNegative(part: string, numbers: seq<int>)
    requires ParseAll(Split(part, '-')) == Some(numbers)
    ensures forall k :: 0 <= k < |numbers| ==> numbers[k] >= 0
  {
    var pieces := Split(part, '-');
    forall k | 0 <= k < |numbers|
      ensures numbers[k] >= 0
    {
      assert '-' !in pieces[k];
      assert ParseInt(pieces[k]) == Some(numbers[k]);
    }
  }

  /** `ParseAll` succeeds with exactly the numbers `int()` reads one by one. */
  lemma {:induction false} ParseAllReads(texts: seq<string>, numbers: seq<int>)
    requires |texts| == |numbers|
    requires forall i :: 0 <= i < |texts| ==> ParseInt(texts[i]) == Some(numbers[i])
    ensures ParseAll(texts) == Some(numbers)
  {
    if |texts| > 0 {
      ParseAllReads(texts[1..], numbers[1..]);
      assert [numbers[0]] + numbers[1..] == numbers;
    }
  }

  /** `ParseParts` succeeds with exactly the number lists read part by part. */
  lemma {:induction false} ParsePartsReads(parts: seq<string>, numbers: seq<seq<int>>)
    requires |parts| == |numbers|
    requires forall i :: 0 <= i < |parts| ==> PartNumbers(parts[i]) == Some(numbers[i])
    ensures ParseParts(parts) == Some(numbers)
  {
    if |parts| > 0 {
      ParsePartsReads(parts[1..], numbers[1..]);
      assert [numbers[0]] + numbers[1..] == numbers;
    }
  }

  function Strings(numbers: seq<int>): (r: seq<string>)
    ensures |r| == |numbers|
    ensures forall i :: 0 <= i < |numbers| ==> r[i] == IntToString(numbers[i])
  {
    seq(|numbers|, i requires 0 <= i < |numbers| => IntToString(numbers[i]))
  }

  /** `get_lectures`: the expanded lecture numbers as strings. A text `int()`
      cannot read raises before the settings are assigned, so then nothing
      changes; every stored number is written in plain digits, since a dash
      splits the part and so never reaches `int()` as a sign. */
  function GetLectures(s: UploadSettings, text: string): (r: Result<UploadSettings, InputError>)
    ensures r.Err? <==> ParseParts(Split(text, ',')).None?
    ensures r.Err? ==> r == Err(NotANumber)
    ensures r.Ok? ==> r.value.(lectures := s.lectures) == s
    ensures r.Ok? ==> r.value.lectures == Some(Strings(AllLectures(ParseParts(Split(text, ',')).value)))
    ensures r.Ok? ==> forall i :: 0 <= i < |r.value.lectures.value| ==> IsDigits(r.value.lectures.value[i])
  {
    match ParseParts(Split(text, ','))
    case None => Err(NotANumber)
    case Some(numbers) => Ok(s.(lectures := Some(LectureStrings(numbers))))
  }

  /** The stored form of the expanded lecture numbers. */
  function LectureStrings(parts: seq<seq<int>>): (r: seq<string>)
    requires forall i, k :: 0 <= i < |parts| && 0 <= k < |parts[i]| ==> parts[i][k] >= 0
    ensures r == Strings(AllLectures(parts))
    ensures forall i :: 0 <= i < |r| ==> IsDigits(r[i])
  {
    LecturesNonNegative(parts);
    Strings(AllLectures(parts))
  }

  /** Parts of non-negative numbers expand to non-negative numbers. */
  lemma {:induction false} LecturesNonNegative(parts: seq<seq<int>>)
    requires forall i, k :: 0 <= i < |parts| && 0 <= k < |parts[i]| ==> parts[i][k] >= 0
    ensures forall k :: 0 <= k < |AllLectures(parts)| ==> AllLectures(parts)[k] >= 0
  {
    if |parts| > 0 {
      LecturesNonNegative(parts[1..]);
    }
  }

  const SummaryHeader := "📥 Настройки выгрузки\n\n"
  const SummaryFooter := "‼️ Перед выгрузкой проверь настройки ‼️"

  function DaysLine(days: Option<seq<seq<string>>>): string
  {
    if IsSet(days) then "🌞 Дни: " + Join(JoinEach(days.value, "-"), ", ") + "\n"
    else "🌞 Дни: все доступные\n"
  }

  function LecturesLine(lectures: Option<seq<string>>): string
  {
    if IsSet(lectures) then "💬 Пары: " + Join(lectures.value, ", ") + "\n"
    else "💬 Пары: все доступные\n"
  }

  function UsersLine(users: Option<seq<string>>): string
  {
    if IsSet(users) then "🎓 Люди: " + Join(users.value, ", ") + "\n"
    else "🎓 Люди: все доступные\n"
  }

  function SubgroupLine(subgroup: Option<int>): string
  {
    if SubgroupIsSet(subgroup) then "💼 Подгруппа: " + IntToString(subgroup.value) + "\n\n"
    else "💼 Подгруппа: обе\n\n"
  }

  /** `get_text_upload_attendance`: a header, one line per filter in a fixed
      order, and the closing warning. */
  function UploadSummary(s: UploadSettings): (r: string)
    ensures |r| >= |SummaryHeader| + |SummaryFooter|
    ensures r[..|SummaryHeader|] == SummaryHeader
    ensures r[|r| - |SummaryFooter|..] == SummaryFooter
  {
    SummaryHeader + DaysLine(s.days) + LecturesLine(s.lectures) + UsersLine(s.users) + SubgroupLine(s.subgroup)
      + SummaryFooter
  }

  /** The summary for unset filters says "all available" for days, lectures
      and people and "both" for the subgroup. */
  lemma UnsetSummary(s: UploadSettings)
    requires !IsSet(s.days) && !IsSet(s.lectures) && !IsSet(s.users) && !SubgroupIsSet(s.subgroup)
    ensures UploadSummary(s) ==
      "📥 Настройки выгрузки\n\n"
      + "🌞 Дни: все доступные\n"
      + "💬 Пары: все доступные\n"
      + "🎓 Люди: все доступные\n"
      + "💼 Подгруппа: обе\n\n"
      + "‼️ Перед выгрузкой проверь настройки ‼️"
  {
  }

  /** After `get_users` the people line shows the operator's text with every
      comma followed by a space; the other lines are those of the settings
      before. */
  lemma UsersSummary(s: UploadSettings, text: string)
    ensures UploadSummary(GetUsers(s, text)) ==
      SummaryHeader + DaysLine(s.days) + LecturesLine(s.lectures)
      + ("🎓 Люди: " + ReplaceChar(text, ',', ", ") + "\n")
      + SubgroupLine(s.subgroup) + SummaryFooter
  {
    var r := GetUsers(s, text);
    assert r == s.(users := Some(Split(text, ',')));
    JoinSplitReplaces(text, ',', ", ");
    assert UsersLine(r.users) == "🎓 Люди: " + ReplaceChar(text, ',', ", ") + "\n";
  }

  /** After `get_days` the days line shows the operator's text with every
      comma followed by a space: joining each entry back with '-' restores
      its segment. The other lines are those of the settings before. */
  lemma DaysSummary(s: UploadSettings, text: string)
    ensures UploadSummary(GetDays(s, text)) ==
      SummaryHeader + ("🌞 Дни: " + ReplaceChar(text, ',', ", ") + "\n")
      + LecturesLine(s.lectures) + UsersLine(s.users) + SubgroupLine(s.subgroup)
      + SummaryFooter
  {
    var r := GetDays(s, text);
    assert r == s.(days := r.days);
    assert JoinEach(r.days.value, "-") == Split(text, ',');
    JoinSplitReplaces(text, ',', ", ");
    assert DaysLine(r.days) == "🌞 Дни: " + ReplaceChar(text, ',', ", ") + "\n";
  }

  /** After `get_lectures` the lectures line lists the expanded numbers
      joined with ", ", or says "all available" when the expansion is empty
      (only reversed ranges, or parts of three or more numbers). The other
      lines are those of the settings before. */
  lemma LecturesSummary(s: UploadSettings, text: string)
    ensures var r := GetLectures(s, text);
            r.Ok? ==>
              var lectures := Strings(AllLectures(ParseParts(Split(text, ',')).value));
              UploadSummary(r.value) ==
                SummaryHeader + DaysLine(s.days)
                + (if |lectures| == 0 then "💬 Пары: все доступные\n" else "💬 Пары: " + Join(lectures, ", ") + "\n")
                + UsersLine(s.users) + SubgroupLine(s.subgroup) + SummaryFooter
  {
  }

  /** After `get_subgroup` reads a number, the subgroup line shows it as
      `str()` writes it, or "both" when it is 0. The other lines are those of
      the settings before. */
  lemma SubgroupSummary(s: UploadSettings, n: int)
    ensures GetSubgroup(s, IntToString(n)).Ok?
    ensures UploadSummary(GetSubgroup(s, IntToString(n)).value) ==
      SummaryHeader + DaysLine(s.days) + LecturesLine(s.lectures) + UsersLine(s.users)
      + (if n != 0 then "💼 Подгруппа: " + IntToString(n) + "\n\n" else "💼 Подгруппа: обе\n\n")
      + SummaryFooter
  {
    GetSubgroupReadsNumber(s, n);
  }

  /** Right after the wipe the summary shows every filter as unset. */
  lemma WipeSummary(s: UploadSettings)
    ensures UploadSummary(Wipe(s)) ==
      "📥 Настройки выгрузки\n\n"
      + "🌞 Дни: все доступные\n"
      + "💬 Пары: все доступные\n"
      + "🎓 Люди: все доступные\n"
      + "💼 Подгруппа: обе\n\n"
      + "‼️ Перед выгрузкой проверь настройки ‼️"
  {
    UnsetSummary(Wipe(s));
  }

  /** `AdminsFilter.filter`: the sender is one of the configured admins. */
  predicate IsAdmin(admins: set<int>, user: int)
  {
    user in admins
  }

  /** The stages of the upload conversation. */
  datatype Stage = Wait | SetDay | SetLecture | SetUser | SetSubgroup

  /** An update from an operator: an inline button press (its callback data)
      or a text message, which may be a command. */
  datatype Event = Button(data: string) | TextMessage(text: string, isCommand: bool)

  datatype Reply =
    | NotHandled
    | AdminPanel
    | ShowSettings(summary: string)
    | AskFor(stage: Stage)
    | SettingStored
    | Failed(error: InputError)   // the handler raised
    | Cancelled
    | NothingToUpload             // the export handler is empty

  /** What a handler hands back: end, move to a stage, or stay (a handler
      that returns nothing, or raises, leaves the stage as it was). */
  datatype Next = End | GoTo(stage: Stage) | Stay

  datatype World = World(settings: UploadSettings, stages: map<int, Stage>)

  datatype Outcome = Outcome(settings: UploadSettings, reply: Reply, next: Next)

  /** The `/admin` command, behind the admin filter. */
  function AdminCommand(admins: set<int>, user: int): (r: Reply)
    ensures r == AdminPanel <==> user in admins
    ensures r != AdminPanel ==> r == NotHandled
  {
    if IsAdmin(admins, user) then AdminPanel else NotHandled
  }

  /** `upload_attendance`: the settings are reset only for the button that
      opens the upload menu, then the summary is shown. */
  function UploadAttendance(s: UploadSettings, data: string): (r: Outcome)
    ensures data == "first_upload_attendance" ==> r.settings == Wipe(s)
    ensures data != "first_upload_attendance" ==> r.settings == s
    ensures r.reply == ShowSettings(UploadSummary(r.settings)) && r.next == GoTo(Wait)
  {
    var s' := if data == "first_upload_attendance" then Wipe(s) else s;
    Outcome(s', ShowSettings(UploadSummary(s')), GoTo(Wait))
  }

  /** A settings handler's result: stored, or raised with the settings kept. */
  function ApplyResult(s: UploadSettings, r: Result<UploadSettings, InputError>): Outcome
  {
    match r
    case Ok(s') => Outcome(s', SettingStored, Stay)
    case Err(e) => Outcome(s, Failed(e), Stay)
  }

  /** The fallbacks: "return" shows the current settings again, "cancel" ends. */
  function Fallback(s: UploadSettings, ev: Event): Option<Outcome>
  {
    if ev == Button("upload_attendance") then Some(UploadAttendance(s, ev.data))
    else if ev == Button("cancel") then Some(Outcome(s, Cancelled, End))
    else None
  }

  /** The state table of the upload conversation. Its entry point carries no
      admin filter. */
  function Dispatch(w: World, user: int, ev: Event): Option<Outcome>
  {
    var s := w.settings;
    if user !in w.stages then
      if ev == Button("first_upload_attendance") then Some(UploadAttendance(s, ev.data)) else None
    else
      match w.stages[user]
      case Wait =>
        if ev == Button("set_days") then Some(Outcome(s, AskFor(SetDay), GoTo(SetDay)))
        else if ev == Button("set_lectures") then Some(Outcome(s, AskFor(SetLecture), GoTo(SetLecture)))
        else if ev == Button("set_users") then Some(Outcome(s, AskFor(SetUser), GoTo(SetUser)))
        else if ev == Button("set_subgroup") then Some(Outcome(s, AskFor(SetSubgroup), GoTo(SetSubgroup)))
        else if ev == Button("start_upload_attendance") then Some(Outcome(s, NothingToUpload, Stay))
        else Fallback(s, ev)
      case SetDay =>
        if ev.TextMessage? && !ev.isCommand then Some(Outcome(GetDays(s, ev.text), SettingStored, Stay))
        else Fallback(s, ev)
      case SetLecture =>
        if ev.TextMessage? && !ev.isCommand then Some(ApplyResult(s, GetLectures(s, ev.text)))
        else Fallback(s, ev)
      case SetUser =>
        if ev.TextMessage? && !ev.isCommand then Some(Outcome(GetUsers(s, ev.text), SettingStored, Stay))
        else Fallback(s, ev)
      case SetSubgroup =>
        if ev.TextMessage? && !ev.isCommand then Some(ApplyResult(s, GetSubgroup(s, ev.text)))
        else Fallback(s, ev)
  }

  function UpdateStage(stages: map<int, Stage>, user: int, next: Next): map<int, Stage>
  {
    match next
    case End => stages - {user}
    case GoTo(st) => stages[user := st]
    case Stay => stages
  }

  /** One update from operator `user`. */
  function Step(w: World, user: int, ev: Event): (r: (World, Reply))
    ensures forall u :: u != user ==> (u in r.0.stages <==> u in w.stages) && (u in w.stages ==> r.0.stages[u] == w.stages[u])
  {
    match Dispatch(w, user, ev)
    case None => (w, NotHandled)
    case Some(o) => (World(o.settings, UpdateStage(w.stages, user, o.next)), o.reply)
  }

  /** The settings are reset only when an operator without a running upload
      conversation presses the button that opens it; since the settings are
      shared, this also discards another operator's choices. */
  lemma WipeOnlyOnEntry(w: World, user: int, ev: Event)
    ensures user !in w.stages && ev == Button("first_upload_attendance") ==>
              Step(w, user, ev).0 == World(Wipe(w.settings), w.stages[user := Wait])
              && Step(w, user, ev).1 == ShowSettings(UploadSummary(Wipe(w.settings)))
    ensures user !in w.stages && ev != Button("first_upload_attendance") ==> Step(w, user, ev) == (w, NotHandled)
    ensures user in w.stages && w.stages[user] == Wait ==> Step(w, user, ev).0.settings == w.settings
  {
  }

  /** "Return" from any stage shows the current settings unchanged and goes
      back to the menu; pressing the opening button again there does nothing. */
  lemma ReturnKeepsSettings(w: World, user: int)
    requires user in w.stages
    ensures Step(w, user, Button("upload_attendance")) ==
              (World(w.settings, w.stages[user := Wait]), ShowSettings(UploadSummary(w.settings)))
    ensures Step(w, user, Button("first_upload_attendance")) == (w, NotHandled)
  {
  }

  /** A settings stage stays open after text, so every further message
      replaces the same setting until the operator returns. */
  lemma SettingStagesStayOpen(w: World, user: int, text: string)
    requires user in w.stages && w.stages[user] != Wait
    ensures Step(w, user, TextMessage(text, false)).0.stages == w.stages
    ensures var s' := Step(w, user, TextMessage(text, false)).0.settings;
            match w.stages[user]
            case SetDay => s' == GetDays(w.settings, text)
            case SetUser => s' == GetUsers(w.settings, text)
            case SetLecture => s' == (if GetLectures(w.settings, text).Ok? then GetLectures(w.settings, text).value else w.settings)
            case SetSubgroup => s' == (if GetSubgroup(w.settings, text).Ok? then GetSubgroup(w.settings, text).value else w.settings)
            case Wait => true
  {
  }
}

=== FILE: admin_examples.dfy ===
/** A worked instance of the lecture filter of bot/admin.py: the format its
    operator prompt gives, "1-4, 7, 8-10".

    The lemmas below take their texts as parameters fixed by a `requires`
    (`requires texts == ["1", "4"]`) instead of stating closed facts about
    literals. This is only to keep the solver from unfolding `int()` and
    `split` on every literal in scope; the statements mean the same. */
module AdminExamples {
  import opened Outcomes
  import opened Text
  import opened Admin

  /** `str()` of the numbers of the example. */
  lemma ExampleDigits()
    ensures IntToString(1) == "1" && IntToString(2) == "2" && IntToString(3) == "3"
    ensures IntToString(4) == "4" && IntToString(7) == "7" && IntToString(8) == "8"
    ensures IntToString(9) == "9" && IntToString(10) == "10"
  {
    assert DigitChar(1) == '1' && DigitChar(2) == '2' && DigitChar(3) == '3';
    assert DigitChar(4) == '4' && DigitChar(7) == '7' && DigitChar(8) == '8';
    assert DigitChar(9) == '9' && DigitChar(0) == '0';
    assert NatToString(10) == NatToString(1) + [DigitChar(0)];
  }

  /** `int()` reads back numbers written by `str()` after leading spaces. */
  lemma ParseAllOfWritten(texts: seq<string>, numbers: seq<int>, pads: seq<string>)
    requires |texts| == |numbers| == |pads|
    requires forall i :: 0 <= i < |texts| ==> AllSpace(pads[i]) && texts[i] == pads[i] + IntToString(numbers[i])
    ensures ParseAll(texts) == Some(numbers)
  {
    forall i | 0 <= i < |texts|
      ensures ParseInt(texts[i]) == Some(numbers[i])
    {
      ParseIntOfString(numbers[i], pads[i], "");
      assert texts[i] == pads[i] + IntToString(numbers[i]) + "";
    }
    ParseAllReads(texts, numbers);
  }

  lemma ExampleSplit()
    ensures Split("1-4, 7, 8-10", ',') == ["1-4", " 7", " 8-10"]
    ensures Split("1-4", '-') == ["1", "4"]
    ensures Split(" 7", '-') == [" 7"]
    ensures Split(" 8-10", '-') == [" 8", "10"]
  {
    assert "1-4, 7, 8-10" == Join(["1-4", " 7", " 8-10"], ",");
    SplitJoin(["1-4", " 7", " 8-10"], ',');
    assert "1-4" == Join(["1", "4"], "-");
    SplitJoin(["1", "4"], '-');
    SplitWithoutSeparator(" 7", '-');
    assert " 8-10" == Join([" 8", "10"], "-");
    SplitJoin([" 8", "10"], '-');
  }

  /** The numbers of the first part, a range. */
  lemma ExampleFirst(texts: seq<string>)
    requires texts == ["1", "4"]
    ensures ParseAll(texts) == Some([1, 4])
  {
    ExampleDigits();
    ParseAllOfWritten(texts, [1, 4], ["", ""]);
  }

  /** The number of the second part. */
  lemma ExampleSecond(texts: seq<string>)
    requires texts == [" 7"]
    ensures ParseAll(texts) == Some([7])
  {
    ExampleDigits();
    ParseAllOfWritten(texts, [7], [" "]);
  }

  /** The numbers of the third part, a range. */
  lemma ExampleThird(texts: seq<string>)
    requires texts == [" 8", "10"]
    ensures ParseAll(texts) == Some([8, 10])
  {
    ExampleDigits();
    ParseAllOfWritten(texts, [8, 10], [" ", ""]);
  }

  lemma ExampleParts(parts: seq<string>)
    requires parts == ["1-4", " 7", " 8-10"]
    ensures ParseParts(parts) == Some([[1, 4], [7], [8, 10]])
  {
    var numbers := [[1, 4], [7], [8, 10]];
    ExampleSplit();
    forall i | 0 <= i < |parts|
      ensures PartNumbers(parts[i]) == Some(numbers[i])
    {
      if i == 0 {
        ExampleFirst(Split(parts[i], '-'));
      } else if i == 1 {
        ExampleSecond(Split(parts[i], '-'));
      } else {
        ExampleThird(Split(parts[i], '-'));
      }
    }
    ParsePartsReads(parts, numbers);
  }

  lemma ExampleLectures(numbers: seq<seq<int>>)
    requires numbers == [[1, 4], [7], [8, 10]]
    ensures AllLectures(numbers) == [1, 2, 3, 4, 7, 8, 9, 10]
  {
    assert Range(1, 5) == [1, 2, 3, 4];
    assert Range(8, 11) == [8, 9, 10];
    assert PartLectures(numbers[0]) == [1, 2, 3, 4];
    assert numbers[1..] == [[7], [8, 10]];
    assert numbers[1..][1..] == [[8, 10]];
    assert AllLectures(numbers[1..][1..]) == [8, 9, 10];
    assert AllLectures(numbers[1..]) == [7, 8, 9, 10];
  }

  lemma ExampleStrings(lectures: seq<int>)
    requires lectures == [1, 2, 3, 4, 7, 8, 9, 10]
    ensures Strings(lectures) == ["1", "2", "3", "4", "7", "8", "9", "10"]
  {
    ExampleDigits();
  }

  /** The format the operator prompt shows, "1-4, 7, 8-10", selects the
      lectures 1, 2, 3, 4, 7, 8, 9 and 10. */
  lemma GetLecturesExample(s: UploadSettings, text: string)
    requires text == "1-4, 7, 8-10"
    ensures GetLectures(s, text) == Ok(s.(lectures := Some(["1", "2", "3", "4", "7", "8", "9", "10"])))
  {
    ExampleSplit();
    var parts := Split(text, ',');
    ExampleParts(parts);
    ExampleLectures([[1, 4], [7], [8, 10]]);
    ExampleStrings([1, 2, 3, 4, 7, 8, 9, 10]);
  }
}

=== FILE: attendance_flow.dfy ===
/** The attendance conversation of bot/attendance.py: a registered participant
    asks to be marked during a lecture slot, types the captcha answer, then
    sends a round video performing the drawn instruction, and one attendance
    record is written.

    The state is the database, the conversation stage of each participant
    (kept by the conversation handler) and the two solution maps the source
    keeps as module globals. The clock and `random.choice` are inputs; message
    deletion, replies and the video download are transport and not modelled. */
module AttendanceFlow {
  import opened Outcomes
  import opened Text
  import opened Schedule
  import opened Challenges
  import opened Store
  import Registration

  /** The two conversation states, CAPTCHA and CHALLENGE. A participant
      without an entry in the stage map has no conversation. */
  datatype Stage = AwaitCaptcha | AwaitChallenge

  /** The text of the keyboard button that starts the conversation. */
  const MarkButton := "✍️ Отметиться"

  /** The entry point's filter `^✍️ Отметиться$`. Python's `$` also matches
      just before a final newline. */
  predicate IsMarkRequest(text: string)
  {
    text == MarkButton || text == MarkButton + "\n"
  }

  /** One update from a participant. */
  datatype Event =
    | TextMessage(text: string)  // any text message, commands included
    | VideoNote                  // a round video message
    | CancelPressed              // the inline "cancel" button
    | OtherUpdate                // anything else: photos, stickers, other buttons

  /** The configuration the handlers read: the slot table and the two
      instruction pools (actions, phrases to say). */
  datatype Config = Config(schedule: seq<Slot>, actions: seq<string>, phrases: seq<string>)

  /** What the clock and `random.choice` supply to one handler call. */
  datatype Env = Env(now: Timestamp, captchaDraws: seq<nat>, action: nat, phrase: nat)

  /** Every draw lies within the pool it is drawn from. */
  predicate EnvFits(cfg: Config, env: Env)
  {
    ValidDraws(env.captchaDraws) && env.action < |cfg.actions| && env.phrase < |cfg.phrases|
  }

  datatype World = World(
    db: Db,
    stages: map<int, Stage>,
    captchaSolutions: map<int, string>,
    challengeSolutions: map<int, string>)

  /** What a handler hands back to the conversation handler: end the
      conversation, move to a stage, or (when the handler raised) nothing, so
      the stage stays as it was. */
  datatype Next = End | GoTo(stage: Stage) | Unchanged

  datatype Failure = UnknownUser | NoStoredChallenge | CommitFailed(error: DbError)

  /** What the participant is told, reduced to its meaning. */
  datatype Reply =
    | NotHandled                      // no handler of this conversation matched
    | NeedRegistration
    | NoLecture
    | CaptchaSent(answer: string)
    | WrongInput
    | ChallengeSent(challenge: string)
    | Marked(record: Attendance)
    | Cancelled
    | Failed(failure: Failure)        // the handler raised

  datatype Outcome = Outcome(world: World, reply: Reply, next: Next)

  /** `attendance`: registration is checked first, then the slot; only then is
      a fresh captcha answer stored for the participant, replacing any earlier
      one. */
  function StartAttendance(cfg: Config, w: World, user: int, env: Env): (r: Outcome)
    requires EnvFits(cfg, env)
    ensures !Registered(w.db, user) ==> r == Outcome(w, NeedRegistration, End)
    ensures Registered(w.db, user) && LectureNumber(cfg.schedule, env.now.time).None? ==>
              r == Outcome(w, NoLecture, End)
    ensures Registered(w.db, user) && LectureNumber(cfg.schedule, env.now.time).Some? ==>
              && r.next == GoTo(AwaitCaptcha)
              && r.world.captchaSolutions.Keys == w.captchaSolutions.Keys + {user}
              && IsAnswer(r.world.captchaSolutions[user])
              && r.reply == CaptchaSent(r.world.captchaSolutions[user])
              && (forall u :: u in w.captchaSolutions && u != user ==> r.world.captchaSolutions[u] == w.captchaSolutions[u])
              && r.world.(captchaSolutions := w.captchaSolutions) == w
  {
    if FindUser(w.db, user).None? then Outcome(w, NeedRegistration, End)
    else if LectureNumber(cfg.schedule, env.now.time).None? then Outcome(w, NoLecture, End)
    else
      var answer := CaptchaText(env.captchaDraws);
      Outcome(w.(captchaSolutions := w.captchaSolutions[user := answer]), CaptchaSent(answer), GoTo(AwaitCaptcha))
  }

  /** The comparison of `verify_captcha`: the upper-cased input against the
      stored answer; a missing answer matches nothing. */
  predicate CaptchaMatches(w: World, user: int, text: string)
  {
    user in w.captchaSolutions && Upper(text) == w.captchaSolutions[user]
  }

  /** `verify_captcha`: a matching answer stores the drawn instruction and
      moves on to the video; anything else ends the conversation with nothing
      stored. The captcha answer itself is never removed. */
  function VerifyCaptcha(cfg: Config, w: World, user: int, text: string, env: Env): (r: Outcome)
    requires EnvFits(cfg, env)
    ensures r.next == GoTo(AwaitChallenge) <==> CaptchaMatches(w, user, text)
    ensures !CaptchaMatches(w, user, text) ==> r == Outcome(w, WrongInput, End)
    ensures CaptchaMatches(w, user, text) ==>
              var challenge := ChallengeText(cfg.actions[env.action], cfg.phrases[env.phrase]);
              && r.world == w.(challengeSolutions := w.challengeSolutions[user := challenge])
              && r.reply == ChallengeSent(challenge)
  {
    if CaptchaMatches(w, user, text) then
      var challenge := DrawChallenge(cfg.actions, cfg.phrases, env.action, env.phrase);
      Outcome(w.(challengeSolutions := w.challengeSolutions[user := challenge]), ChallengeSent(challenge), GoTo(AwaitChallenge))
    else
      Outcome(w, WrongInput, End)
  }

  /** The record `verify_challenge` builds and commits. */
  function NewRecord(cfg: Config, w: World, user: int, env: Env): Attendance
    requires Registered(w.db, user) && user in w.challengeSolutions
    requires LectureNumber(cfg.schedule, env.now.time).Some?
  {
    Attendance(
      |w.db.attendances| + 1,
      env.now,
      LectureNumber(cfg.schedule, env.now.time).value,
      FindUser(w.db, user).value.id,
      w.challengeSolutions[user],
      ProofKey(user, env.now))
  }

  /** `verify_challenge`: the lecture number is resolved again at submission
      time and exactly one record is appended, carrying the stored instruction;
      the conversation ends. The number is not checked first, so outside every
      slot the commit violates the NOT NULL column and the handler raises: no
      record is written (the proof video already downloaded to data/proofs
      stays there) and the stage stays as it was. */
  function VerifyChallenge(cfg: Config, w: World, user: int, env: Env): (r: Outcome)
    ensures var lecture := LectureNumber(cfg.schedule, env.now.time);
            Registered(w.db, user) && user in w.challengeSolutions && lecture.Some? ==>
              && r.world == w.(db := w.db.(attendances := w.db.attendances + [NewRecord(cfg, w, user, env)]))
              && r.reply == Marked(NewRecord(cfg, w, user, env))
              && r.next == End
    ensures var lecture := LectureNumber(cfg.schedule, env.now.time);
            !(Registered(w.db, user) && user in w.challengeSolutions && lecture.Some?) ==>
              r.world == w && r.next == Unchanged && r.reply.Failed?
    ensures LectureNumber(cfg.schedule, env.now.time).None? ==> r.reply.Failed?
  {
    match FindUser(w.db, user)
    case None => Outcome(w, Failed(UnknownUser), Unchanged)
    case Some(u) =>
      if user !in w.challengeSolutions then Outcome(w, Failed(NoStoredChallenge), Unchanged)
      else
        var lecture := LectureNumber(cfg.schedule, env.now.time);
        match InsertAttendance(w.db, env.now, lecture, u.id, w.challengeSolutions[user], ProofKey(user, env.now))
        case Err(e) => Outcome(w, Failed(CommitFailed(e)), Unchanged)
        case Ok(db') =>
          var record := db'.attendances[|db'.attendances| - 1];
          Outcome(w.(db := db'), Marked(record), End)
  }

  /** `no_video`: text instead of a video ends the conversation; nothing is
      written or cleared. */
  function NoVideo(w: World): (r: Outcome)
    ensures r.world == w && r.next == End
  {
    Outcome(w, WrongInput, End)
  }

  /** `cancel`: ends the conversation; nothing is written or cleared. */
  function Cancel(w: World): (r: Outcome)
    ensures r.world == w && r.next == End
  {
    Outcome(w, Cancelled, End)
  }

  /** The conversation handler's bookkeeping after a handler returns. */
  function UpdateStage(stages: map<int, Stage>, user: int, next: Next): (r: map<int, Stage>)
    ensures next.End? ==> user !in r
    ensures next.GoTo? ==> user in r && r[user] == next.stage
    ensures next.Unchanged? ==> r == stages
    ensures forall u :: u != user ==> (u in r <==> u in stages) && (u in r ==> r[u] == stages[u])
  {
    match next
    case End => stages - {user}
    case GoTo(s) => stages[user := s]
    case Unchanged => stages
  }

  /** The state table of `handlers`: which handler an update reaches, given
      the participant's stage. No re-entry: while a conversation runs, the
      button text is just text for the current stage. */
  function Dispatch(cfg: Config, w: World, user: int, ev: Event, env: Env): Option<Outcome>
    requires EnvFits(cfg, env)
  {
    if user !in w.stages then
      if ev.TextMessage? && IsMarkRequest(ev.text) then Some(StartAttendance(cfg, w, user, env)) else None
    else
      match w.stages[user]
      case AwaitCaptcha =>
        (match ev
         case TextMessage(text) => Some(VerifyCaptcha(cfg, w, user, text, env))
         case CancelPressed => Some(Cancel(w))
         case _ => None)
      case AwaitChallenge =>
        (match ev
         case VideoNote => Some(VerifyChallenge(cfg, w, user, env))
         case TextMessage(_) => Some(NoVideo(w))
         case CancelPressed => Some(Cancel(w))
         case OtherUpdate => None)
  }

  /** One update from `user` processed by the conversation. */
  function Step(cfg: Config, w: World, user: int, ev: Event, env: Env): (r: (World, Reply))
    requires EnvFits(cfg, env)
    ensures r.0.stages.Keys - {user} == w.stages.Keys - {user}
  {
    match Dispatch(cfg, w, user, ev, env)
    case None => (w, NotHandled)
    case Some(o) => (o.world.(stages := UpdateStage(w.stages, user, o.next)), o.reply)
  }

  /** The stored instruction is one composed from the two pools. */
  predicate IsInstruction(cfg: Config, s: string)
  {
    exists i, j :: 0 <= i < |cfg.actions| && 0 <= j < |cfg.phrases| && s == ChallengeText(cfg.actions[i], cfg.phrases[j])
  }

  /** What every stored record satisfies: a slot number that its own
      timestamp resolves to, an instruction from the pools, an existing user
      and a proof key derived from that user and the timestamp. */
  predicate RecordFits(cfg: Config, db: Db, a: Attendance)
  {
    && 1 <= a.lectureNumber <= |cfg.schedule|
    && LectureNumber(cfg.schedule, a.timestamp.time) == Some(a.lectureNumber)
    && IsInstruction(cfg, a.challenge)
    && 1 <= a.userId <= |db.users|
    && a.videoPath == ProofKey(db.users[a.userId - 1].telegramId, a.timestamp)
  }

  /** The invariant of the bot's state between updates. */
  predicate Inv(cfg: Config, w: World)
  {
    && Valid(w.db)
    && (forall u :: u in w.stages ==> Registered(w.db, u))
    && (forall u :: u in w.stages && w.stages[u] == AwaitCaptcha ==> u in w.captchaSolutions)
    && (forall u :: u in w.stages && w.stages[u] == AwaitChallenge ==> u in w.challengeSolutions)
    && (forall u :: u in w.captchaSolutions ==> IsAnswer(w.captchaSolutions[u]))
    && (forall u :: u in w.challengeSolutions ==> IsInstruction(cfg, w.challengeSolutions[u]))
    && (forall k :: 0 <= k < |w.db.attendances| ==> RecordFits(cfg, w.db, w.db.attendances[k]))
  }

  /** The state the bot starts in: an empty database and empty maps. */
  function Initial(): (w: World)
    ensures forall cfg :: Inv(cfg, w)
  {
    World(EmptyDb, map[], map[], map[])
  }

  /** The world after a handler's outcome is recorded. */
  function Apply(w: World, user: int, o: Outcome): World
  {
    o.world.(stages := UpdateStage(w.stages, user, o.next))
  }

  lemma StartKeepsInv(cfg: Config, w: World, user: int, env: Env)
    requires Inv(cfg, w) && EnvFits(cfg, env)
    ensures Inv(cfg, Apply(w, user, StartAttendance(cfg, w, user, env)))
  {
  }

  lemma VerifyCaptchaKeepsInv(cfg: Config, w: World, user: int, text: string, env: Env)
    requires Inv(cfg, w) && EnvFits(cfg, env)
    requires user in w.stages
    ensures Inv(cfg, Apply(w, user, VerifyCaptcha(cfg, w, user, text, env)))
  {
    var o := VerifyCaptcha(cfg, w, user, text, env);
    if CaptchaMatches(w, user, text) {
      var c := o.world.challengeSolutions[user];
      assert IsInstruction(cfg, c) by {
        assert c == ChallengeText(cfg.actions[env.action], cfg.phrases[env.phrase]);
      }
    }
  }

  lemma VerifyChallengeKeepsInv(cfg: Config, w: World, user: int, env: Env)
    requires Inv(cfg, w)
    requires user in w.stages
    ensures Inv(cfg, Apply(w, user, VerifyChallenge(cfg, w, user, env)))
  {
    var w' := Apply(w, user, VerifyChallenge(cfg, w, user, env));
    if w'.db != w.db {
      var a := NewRecord(cfg, w, user, env);
      assert w'.db.attendances == w.db.attendances + [a];
      assert IsInstruction(cfg, w.challengeSolutions[user]);
      assert RecordFits(cfg, w'.db, a);
      forall k | 0 <= k < |w'.db.attendances|
        ensures RecordFits(cfg, w'.db, w'.db.attendances[k])
      {
        if k < |w.db.attendances| {
          assert w'.db.attendances[k] == w.db.attendances[k];
        }
      }
    }
  }

  /** Every update of the attendance conversation keeps the invariant. */
  lemma StepKeepsInv(cfg: Config, w: World, user: int, ev: Event, env: Env)
    requires Inv(cfg, w) && EnvFits(cfg, env)
    ensures Inv(cfg, Step(cfg, w, user, ev, env).0)
  {
    match Dispatch(cfg, w, user, ev, env)
    case None =>
    case Some(o) =>
      assert Step(cfg, w, user, ev, env).0 == Apply(w, user, o);
      if user !in w.stages {
        StartKeepsInv(cfg, w, user, env);
      } else if w.stages[user] == AwaitCaptcha && ev.TextMessage? {
        VerifyCaptchaKeepsInv(cfg, w, user, ev.text, env);
      } else if w.stages[user] == AwaitChallenge && ev.VideoNote? {
        VerifyChallengeKeepsInv(cfg, w, user, env);
      }
  }

  /** The participant commands of bot/default.py (`/reg`, `/group`, the
      profile button) share the database with the conversation and keep the
      invariant too: users are never removed and a user's Telegram id never
      changes, so every record still names its user and proof key. */
  lemma RegistrationKeepsInv(cfg: Config, w: World, user: int, cmd: Registration.Command)
    requires Inv(cfg, w)
    ensures Inv(cfg, w.(db := Registration.Handle(w.db, user, cmd).0))
  {
    var db' := Registration.Handle(w.db, user, cmd).0;
    Registration.HandleKeepsIdentities(w.db, user, cmd);
    IdentitiesKeepInv(cfg, w, db');
  }

  /** A valid database that keeps every user's Telegram id and the records
      keeps the invariant. */
  lemma IdentitiesKeepInv(cfg: Config, w: World, db': Db)
    requires Inv(cfg, w) && Valid(db') && Registration.KeepsIdentities(w.db, db')
    ensures Inv(cfg, w.(db := db'))
  {
    forall u | u in w.stages
      ensures Registered(db', u)
    {
      var i :| 0 <= i < |w.db.users| && w.db.users[i].telegramId == u;
      assert db'.users[i].telegramId == u;
    }
    forall k | 0 <= k < |db'.attendances|
      ensures RecordFits(cfg, db', db'.attendances[k])
    {
      var a := db'.attendances[k];
      assert a == w.db.attendances[k];
      assert RecordFits(cfg, w.db, a);
      assert db'.users[a.userId - 1].telegramId == w.db.users[a.userId - 1].telegramId;
    }
  }

  /** The attendance table is append-only: an update adds at most one record
      and never touches the users; it adds one exactly when a video note
      arrives in the CHALLENGE stage while some slot is active. */
  lemma StepAppendsAtMostOne(cfg: Config, w: World, user: int, ev: Event, env: Env)
    requires Inv(cfg, w) && EnvFits(cfg, env)
    ensures var w' := Step(cfg, w, user, ev, env).0;
            && w'.db.users == w.db.users
            && |w.db.attendances| <= |w'.db.attendances| <= |w.db.attendances| + 1
            && w'.db.attendances[..|w.db.attendances|] == w.db.attendances
            && (|w'.db.attendances| == |w.db.attendances| + 1 <==>
                  && user in w.stages && w.stages[user] == AwaitChallenge && ev.VideoNote?
                  && LectureNumber(cfg.schedule, env.now.time).Some?)
  {
    var w' := Step(cfg, w, user, ev, env).0;
    if user in w.stages && w.stages[user] == AwaitChallenge && ev.VideoNote? {
      assert Dispatch(cfg, w, user, ev, env) == Some(VerifyChallenge(cfg, w, user, env));
    } else {
      assert w'.db == w.db;
    }
  }

  /** No terminal step clears a solution map: entries only appear or are
      overwritten for the participant who sent the update. */
  lemma SolutionsAreNeverCleared(cfg: Config, w: World, user: int, ev: Event, env: Env)
    requires EnvFits(cfg, env)
    ensures var w' := Step(cfg, w, user, ev, env).0;
            && w.captchaSolutions.Keys <= w'.captchaSolutions.Keys
            && w.challengeSolutions.Keys <= w'.challengeSolutions.Keys
            && (forall u :: u != user && u in w.captchaSolutions ==> w'.captchaSolutions[u] == w.captchaSolutions[u])
            && (forall u :: u != user && u in w.challengeSolutions ==> w'.challengeSolutions[u] == w.challengeSolutions[u])
  {
  }

  /** A confirmed proof ends the conversation, so a second video note is not
      handled and cannot write a second record. */
  lemma NoSecondRecord(cfg: Config, w: World, user: int, env1: Env, env2: Env)
    requires EnvFits(cfg, env1) && EnvFits(cfg, env2)
    requires Step(cfg, w, user, VideoNote, env1).1.Marked?
    ensures var w1 := Step(cfg, w, user, VideoNote, env1).0;
            Step(cfg, w1, user, VideoNote, env2) == (w1, NotHandled)
  {
    var o := Dispatch(cfg, w, user, VideoNote, env1).value;
    assert o.next == End;
  }

  /** The start button pressed again during the captcha stage is not a
      restart: it is checked as a captcha answer, fails, and ends the
      conversation. */
  lemma MarkButtonDuringCaptcha(cfg: Config, w: World, user: int, env: Env)
    requires Inv(cfg, w) && EnvFits(cfg, env)
    requires user in w.stages && w.stages[user] == AwaitCaptcha
    ensures Step(cfg, w, user, TextMessage(MarkButton), env) == (w.(stages := w.stages - {user}), WrongInput)
  {
    MarkButtonIsNoAnswer();
    NonAnswerEndsCaptcha(cfg, w, user, MarkButton, env);
  }

  /** Text that cannot upper-case to an answer ends the captcha stage. */
  lemma NonAnswerEndsCaptcha(cfg: Config, w: World, user: int, text: string, env: Env)
    requires Inv(cfg, w) && EnvFits(cfg, env)
    requires user in w.stages && w.stages[user] == AwaitCaptcha
    requires !IsAnswer(Upper(text))
    ensures Step(cfg, w, user, TextMessage(text), env) == (w.(stages := w.stages - {user}), WrongInput)
  {
    assert !CaptchaMatches(w, user, text);
  }

  lemma MarkButtonIsNoAnswer()
    ensures !IsAnswer(Upper(MarkButton))
  {
    var c := MarkButton[0];
    assert c == '✍';
    assert UpperChar(c) == [c];
    FirstCharDecides(MarkButton);
  }

  /** A text whose first character upper-cases to itself and is outside the
      alphabet never upper-cases to an answer. */
  lemma FirstCharDecides(s: string)
    requires |s| > 0 && UpperChar(s[0]) == [s[0]] && s[0] !in Alphabet
    ensures !IsAnswer(Upper(s))
  {
    assert Upper(s)[0] == s[0];
  }

  /** The start button pressed again during the video stage counts as text
      instead of a video: the conversation ends and nothing is written. */
  lemma MarkButtonDuringChallenge(cfg: Config, w: World, user: int, env: Env)
    requires EnvFits(cfg, env)
    requires user in w.stages && w.stages[user] == AwaitChallenge
    ensures Step(cfg, w, user, TextMessage(MarkButton), env) == (w.(stages := w.stages - {user}), WrongInput)
  {
  }

  /** The whole conversation: the button, the captcha answer typed in lower
      case, then a video note. Exactly one record is written, with the slot
      resolved when the video arrives and the instruction issued after the
      captcha. */
  lemma MarkingScenario(cfg: Config, w: World, user: int, env1: Env, env2: Env, env3: Env)
    requires Inv(cfg, w) && EnvFits(cfg, env1) && EnvFits(cfg, env2) && EnvFits(cfg, env3)
    requires user !in w.stages && Registered(w.db, user)
    requires LectureNumber(cfg.schedule, env1.now.time).Some?
    requires LectureNumber(cfg.schedule, env3.now.time).Some?
    ensures var answer := CaptchaText(env1.captchaDraws);
            var challenge := ChallengeText(cfg.actions[env2.action], cfg.phrases[env2.phrase]);
            var (w1, r1) := Step(cfg, w, user, TextMessage(MarkButton), env1);
            var (w2, r2) := Step(cfg, w1, user, TextMessage(Lower(answer)), env2);
            var (w3, r3) := Step(cfg, w2, user, VideoNote, env3);
            && r1 == CaptchaSent(answer)
            && r2 == ChallengeSent(challenge)
            && r3.Marked?
            && user !in w3.stages
            && w3.db.users == w.db.users
            && w3.db.attendances == w.db.attendances + [Attendance(
                 |w.db.attendances| + 1,
                 env3.now,
                 LectureNumber(cfg.schedule, env3.now.time).value,
                 FindUser(w.db, user).value.id,
                 challenge,
                 ProofKey(user, env3.now))]
  {
    var answer := CaptchaText(env1.captchaDraws);
    var challenge := ChallengeText(cfg.actions[env2.action], cfg.phrases[env2.phrase]);
    ScenarioButton(cfg, w, user, env1);
    var w1 := w.(stages := w.stages[user := AwaitCaptcha], captchaSolutions := w.captchaSolutions[user := answer]);
    ScenarioAnswer(cfg, w1, user, answer, env2);
    var w2 := w1.(stages := w1.stages[user := AwaitChallenge], challengeSolutions := w1.challengeSolutions[user := challenge]);
    ScenarioVideo(cfg, w2, user, env3);
    assert NewRecord(cfg, w2, user, env3).challenge == challenge;
  }

  /** The first step of the scenario: the button starts the captcha. */
  lemma ScenarioButton(cfg: Config, w: World, user: int, env: Env)
    requires EnvFits(cfg, env)
    requires user !in w.stages && Registered(w.db, user)
    requires LectureNumber(cfg.schedule, env.now.time).Some?
    ensures var answer := CaptchaText(env.captchaDraws);
            Step(cfg, w, user, TextMessage(MarkButton), env) ==
              (w.(stages := w.stages[user := AwaitCaptcha], captchaSolutions := w.captchaSolutions[user := answer]), CaptchaSent(answer))
  {
  }

  /** The second step: the stored answer typed in lower case is accepted. */
  lemma ScenarioAnswer(cfg: Config, w: World, user: int, answer: string, env: Env)
    requires EnvFits(cfg, env)
    requires user in w.stages && w.stages[user] == AwaitCaptcha
    requires user in w.captchaSolutions && w.captchaSolutions[user] == answer && IsAnswer(answer)
    ensures var challenge := ChallengeText(cfg.actions[env.action], cfg.phrases[env.phrase]);
            Step(cfg, w, user, TextMessage(Lower(answer)), env) ==
              (w.(stages := w.stages[user := AwaitChallenge], challengeSolutions := w.challengeSolutions[user := challenge]), ChallengeSent(challenge))
  {
    AnswerMatchesInAnyCase(answer);
    assert CaptchaMatches(w, user, Lower(answer));
  }

  /** The last step: the video note writes the record and ends the
      conversation. */
  lemma ScenarioVideo(cfg: Config, w: World, user: int, env: Env)
    requires EnvFits(cfg, env)
    requires user in w.stages && w.stages[user] == AwaitChallenge
    requires Registered(w.db, user) && user in w.challengeSolutions
    requires LectureNumber(cfg.schedule, env.now.time).Some?
    ensures Step(cfg, w, user, VideoNote, env) ==
              (w.(db := w.db.(attendances := w.db.attendances + [NewRecord(cfg, w, user, env)]), stages := w.stages - {user}),
               Marked(NewRecord(cfg, w, user, env)))
  {
  }
}

=== FILE: challenges.dfy ===
/** The two texts a participant must reproduce: the captcha answer drawn in
    `generate_captcha` (bot/captcha.py) and the on-camera instruction composed
    in `verify_captcha` (bot/attendance.py). Randomness is passed in as the
    drawn positions; the captcha image is not modelled. */
module Challenges {
  import opened Text

  /** The captcha alphabet: capitals and digits without the look-alikes
      I, O, Q, W, M, 0 and 1. */
  const Alphabet := "ERTYUPLKJHGFDSAZXCVBN23456789"

  const AnswerLength := 5

  /** Positions into `Alphabet`, one per answer character, as `random.choice`
      would draw them. */
  predicate ValidDraws(draws: seq<nat>)
  {
    |draws| == AnswerLength && forall i :: 0 <= i < |draws| ==> draws[i] < |Alphabet|
  }

  /** A well-formed captcha answer. */
  predicate IsAnswer(s: string)
  {
    |s| == AnswerLength && forall i :: 0 <= i < |s| ==> s[i] in Alphabet
  }

  /** The answer text of `generate_captcha`: five characters drawn from the
      alphabet. */
  function CaptchaText(draws: seq<nat>): (r: string)
    requires ValidDraws(draws)
    ensures IsAnswer(r)
    ensures forall i :: 0 <= i < |r| ==> r[i] == Alphabet[draws[i]]
  {
    seq(AnswerLength, i requires 0 <= i < AnswerLength => Alphabet[draws[i]])
  }

  function IndexIn(c: char, s: string): (k: nat)
    requires c in s
    ensures k < |s| && s[k] == c
  {
    if s[0] == c then 0 else 1 + IndexIn(c, s[1..])
  }

  /** Every well-formed answer can be drawn, so the draw model loses no answer. */
  lemma EveryAnswerIsDrawable(s: string)
    requires IsAnswer(s)
    ensures exists draws :: ValidDraws(draws) && CaptchaText(draws) == s
  {
    var draws := seq(AnswerLength, i requires 0 <= i < AnswerLength => IndexIn(s[i], Alphabet));
    assert ValidDraws(draws);
    assert CaptchaText(draws) == s;
  }

  lemma AlphabetIsCapitalsAndDigits()
    ensures forall i :: 0 <= i < |Alphabet| ==> IsAsciiCapitalOrDigit(Alphabet[i])
  {
  }

  /** An answer has no lower-case letter, and `upper()` maps the answer itself
      and its lower-case spelling to the answer: matching is case-insensitive. */
  lemma AnswerMatchesInAnyCase(s: string)
    requires IsAnswer(s)
    ensures forall i :: 0 <= i < |s| ==> !('a' <= s[i] <= 'z')
    ensures Upper(s) == s
    ensures Upper(Lower(s)) == s
  {
    AlphabetIsCapitalsAndDigits();
    assert forall i :: 0 <= i < |s| ==> IsAsciiCapitalOrDigit(s[i]);
    UpperFixesCapitals(s);
    UpperOfLower(s);
  }

  const ChallengeMiddle := "* и скажи *\""
  const ChallengeEnd := "\"* на камеру"

  /** The instruction stored as the challenge solution: an action in bold,
      then a phrase to say, in quotes. */
  function ChallengeText(action: string, phrase: string): string
  {
    "*" + action + ChallengeMiddle + phrase + ChallengeEnd
  }

  /** The action sits right after the opening asterisk and is closed by one. */
  lemma ActionPosition(a: string, p: string)
    ensures |ChallengeText(a, p)| > 1 + |a|
    ensures ChallengeText(a, p)[1 + |a|] == '*'
    ensures forall k :: 0 <= k < |a| ==> ChallengeText(a, p)[1 + k] == a[k]
  {
  }

  /** The instruction determines the drawn action and phrase when the action
      contains no asterisk, so a stored challenge identifies what was asked. */
  lemma {:induction false} ChallengeTextInjective(a1: string, p1: string, a2: string, p2: string)
    requires '*' !in a1 && '*' !in a2
    requires ChallengeText(a1, p1) == ChallengeText(a2, p2)
    ensures a1 == a2 && p1 == p2
  {
    var s := ChallengeText(a1, p1);
    assert s == "*" + a1 + (ChallengeMiddle + p1 + ChallengeEnd);
    assert s == "*" + a2 + (ChallengeMiddle + p2 + ChallengeEnd);
    ActionPosition(a1, p1);
    ActionPosition(a2, p2);
    if |a1| < |a2| {
      assert false;
    } else if |a2| < |a1| {
      assert false;
    }
    assert a1 == s[1..1 + |a1|] == a2;
    var pre := 1 + |a1| + |ChallengeMiddle|;
    assert |p1| == |p2|;
    assert p1 == s[pre..pre + |p1|] == p2;
  }

  /** The instruction built from the drawn positions of the two pools. */
  function DrawChallenge(actions: seq<string>, phrases: seq<string>, a: nat, p: nat): (r: string)
    requires a < |actions| && p < |phrases|
    ensures exists i, j :: 0 <= i < |actions| && 0 <= j < |phrases| && r == ChallengeText(actions[i], phrases[j])
  {
    ChallengeText(actions[a], phrases[p])
  }
}

=== FILE: outcomes.dfy ===
/** Option and Result values used throughout the model in place of Python's
    `None` returns and raised exceptions. */
module Outcomes {

  /** A value that may be absent: Python's `x | None`. */
  datatype Option<+T> = None | Some(value: T)

  /** Either a value or the error that interrupted the computation. */
  datatype Result<+T, +E> = Ok(value: T) | Err(error: E)
}

=== FILE: registration.dfy ===
/** The participant commands of bot/default.py: `/reg` (register or rename,
    keyed by Telegram id), `/group` (choose subgroup 1 or 2) and the profile
    button. Message deletion and reply sending are transport and not
    modelled; a reply is described by what it reports. */
module Registration {
  import opened Outcomes
  import opened Text
  import opened Store

  datatype RegReply =
    | RegUsage                                  // wrong number of words
    | RegUpdated(oldName: string, newName: string)
    | RegCreated(newName: string)

  datatype GroupReply =
    | GroupUsage                                // anything but a single "1" or "2"
    | GroupChanged(subgroup: int)
    | GroupNeedsRegistration

  datatype ProfileReply =
    | ProfileShown(user: User)
    | ProfileNeedsRegistration

  /** The full name as the bot prints it: last, first and middle name. */
  function FullName(lastName: string, firstName: string, middleName: string): string
  {
    lastName + " " + firstName + " " + middleName
  }

  /** Every user other than the one with `telegramId` is the same in both tables,
      and no user is added or removed. */
  predicate OthersUnchanged(db: Db, db': Db, telegramId: int)
  {
    && |db'.users| == |db.users|
    && (forall i :: 0 <= i < |db.users| && db.users[i].telegramId != telegramId ==> db'.users[i] == db.users[i])
    && db'.attendances == db.attendances
  }

  /** `reg`: with exactly three words, the participant's names are set, creating
      the user (subgroup 0) when the Telegram id is new, and otherwise changing
      only the three names of the existing user. */
  function Reg(db: Db, telegramId: int, args: seq<string>): (r: (Db, RegReply))
    ensures |args| != 3 ==> r == (db, RegUsage)
    ensures |args| == 3 && !Registered(db, telegramId) ==>
              && |r.0.users| == |db.users| + 1
              && r.0.users[..|db.users|] == db.users
              && r.0.attendances == db.attendances
              && FindUser(r.0, telegramId) == Some(User(|db.users| + 1, telegramId, args[0], args[1], args[2], 0))
              && r.1 == RegCreated(FullName(args[0], args[1], args[2]))
    ensures |args| == 3 && Registered(db, telegramId) ==>
              var prev := FindUser(db, telegramId).value;
              && FindUser(r.0, telegramId) == Some(prev.(lastName := args[0], firstName := args[1], middleName := args[2]))
              && (Valid(db) ==> OthersUnchanged(db, r.0, telegramId))
              && r.1 == RegUpdated(FullName(prev.lastName, prev.firstName, prev.middleName), FullName(args[0], args[1], args[2]))
    ensures Valid(db) ==> Valid(r.0)
  {
    if |args| != 3 then (db, RegUsage)
    else
      var lastName, firstName, middleName := args[0], args[1], args[2];
      var newName := FullName(lastName, firstName, middleName);
      match UserIndex(db, telegramId)
      case Some(i) =>
        var prev := db.users[i];
        var updated := prev.(lastName := lastName, firstName := firstName, middleName := middleName);
        var db' := db.(users := db.users[i := updated]);
        UserIndexAt(db', telegramId, i);
        (db', RegUpdated(FullName(prev.lastName, prev.firstName, prev.middleName), newName))
      case None =>
        (InsertUser(db, telegramId, lastName, firstName, middleName).value, RegCreated(newName))
  }

  /** The check `group` makes on its arguments: one word that is all digits
      and is "1" or "2". */
  predicate GroupArgsOk(args: seq<string>)
  {
    |args| == 1 && IsDigits(args[0]) && (args[0] == "1" || args[0] == "2")
  }

  /** The digit test is implied by the membership test: only the two
      one-word argument lists pass. */
  lemma GroupArgsOkExactly(args: seq<string>)
    ensures GroupArgsOk(args) <==> args == ["1"] || args == ["2"]
  {
    if args == ["1"] || args == ["2"] {
      assert IsDigits(args[0]);
    }
  }

  /** `group`: a valid choice sets only the subgroup of a registered user;
      an invalid argument list, or an unregistered user, changes nothing. */
  function Group(db: Db, telegramId: int, args: seq<string>): (r: (Db, GroupReply))
    ensures !GroupArgsOk(args) ==> r == (db, GroupUsage)
    ensures GroupArgsOk(args) && !Registered(db, telegramId) ==> r == (db, GroupNeedsRegistration)
    ensures GroupArgsOk(args) && Registered(db, telegramId) ==>
              var n := if args[0] == "1" then 1 else 2;
              && FindUser(r.0, telegramId) == Some(FindUser(db, telegramId).value.(subgroup := n))
              && (Valid(db) ==> OthersUnchanged(db, r.0, telegramId))
              && r.1 == GroupChanged(n)
    ensures Valid(db) ==> Valid(r.0)
  {
    if !GroupArgsOk(args) then (db, GroupUsage)
    else
      var n := if args[0] == "1" then 1 else 2;
      match UserIndex(db, telegramId)
      case Some(i) =>
        var db' := db.(users := db.users[i := db.users[i].(subgroup := n)]);
        UserIndexAt(db', telegramId, i);
        (db', GroupChanged(n))
      case None => (db, GroupNeedsRegistration)
  }

  /** `profile`: the stored row of the participant, if registered. */
  function Profile(db: Db, telegramId: int): (r: ProfileReply)
    ensures r.ProfileShown? <==> Registered(db, telegramId)
    ensures r.ProfileShown? ==> r.user in db.users && r.user.telegramId == telegramId
  {
    match FindUser(db, telegramId)
    case Some(u) => ProfileShown(u)
    case None => ProfileNeedsRegistration
  }

  /** The commands of this file, as the handler table routes them. `/start`,
      `/help` and the cancel button only talk to the transport. */
  datatype Command =
    | Start
    | RegCommand(args: seq<string>)
    | GroupCommand(args: seq<string>)
    | ProfileButton
    | CancelButton

  datatype Reply =
    | Greeting
    | RegAnswer(reg: RegReply)
    | GroupAnswer(group: GroupReply)
    | ProfileAnswer(profile: ProfileReply)
    | CancelAnswer

  function Handle(db: Db, telegramId: int, cmd: Command): (r: (Db, Reply))
    ensures cmd.Start? || cmd.ProfileButton? || cmd.CancelButton? ==> r.0 == db
    ensures Valid(db) ==> Valid(r.0)
  {
    match cmd
    case Start => (db, Greeting)
    case RegCommand(args) => var (db', rr) := Reg(db, telegramId, args); (db', RegAnswer(rr))
    case GroupCommand(args) => var (db', gr) := Group(db, telegramId, args); (db', GroupAnswer(gr))
    case ProfileButton => (db, ProfileAnswer(Profile(db, telegramId)))
    case CancelButton => (db, CancelAnswer)
  }

  /** No user is removed, no user's Telegram id changes and the attendance
      table is untouched; users may be appended or renamed. */
  predicate KeepsIdentities(db: Db, db': Db)
  {
    && |db.users| <= |db'.users|
    && (forall i :: 0 <= i < |db.users| ==> db'.users[i].telegramId == db.users[i].telegramId)
    && db'.attendances == db.attendances
  }

  /** Every command keeps the identities of the stored users. */
  lemma HandleKeepsIdentities(db: Db, telegramId: int, cmd: Command)
    requires Valid(db)
    ensures KeepsIdentities(db, Handle(db, telegramId, cmd).0)
  {
    match cmd
    case RegCommand(args) =>
      if |args| == 3 {
        match UserIndex(db, telegramId)
        case Some(i) =>
        case None =>
          assert Reg(db, telegramId, args).0 == InsertUser(db, telegramId, args[0], args[1], args[2]).value;
      }
    case GroupCommand(args) =>
    case _ =>
  }

  /** `/reg` from an already registered Telegram id creates no second user
      and leaves the Telegram ids pairwise distinct. */
  lemma RegNeverDuplicates(db: Db, telegramId: int, args: seq<string>)
    requires Valid(db)
    requires Registered(db, telegramId)
    ensures |Reg(db, telegramId, args).0.users| == |db.users|
    ensures forall i, j :: 0 <= i < j < |Reg(db, telegramId, args).0.users| ==>
              Reg(db, telegramId, args).0.users[i].telegramId != Reg(db, telegramId, args).0.users[j].telegramId
  {
  }

  /** Re-registration keeps the row's id, Telegram id and subgroup. */
  lemma ReRegistrationKeepsIdentity(db: Db, telegramId: int, args: seq<string>)
    requires Valid(db) && |args| == 3 && Registered(db, telegramId)
    ensures var u := FindUser(db, telegramId).value;
            var u' := FindUser(Reg(db, telegramId, args).0, telegramId).value;
            u'.id == u.id && u'.telegramId == u.telegramId && u'.subgroup == u.subgroup
  {
  }
}

=== FILE: schedule.dfy ===
/** The slot table and the slot resolver `get_lecture_number`
    (bot/captcha.py). The clock is not modelled: callers pass the current
    moment in. */
module Schedule {
  import opened Outcomes

  /** A time of day in microseconds since midnight, the resolution of
      Python's `datetime.time`. */
  type TimeOfDay = nat

  /** A zone-aware moment, reduced to what the bot uses: the local calendar
      day (a day number) and the local time of day. */
  datatype Timestamp = Timestamp(day: int, time: TimeOfDay)

  /** One row of the schedule table: the half-open interval [start, end). */
  datatype Slot = Slot(start: TimeOfDay, end: TimeOfDay)

  predicate Contains(slot: Slot, t: TimeOfDay)
  {
    slot.start <= t < slot.end
  }

  /** `get_lecture_number`: the 1-based position of the first slot whose
      interval holds `t`, or `None` when no slot does. */
  function LectureNumber(schedule: seq<Slot>, t: TimeOfDay): (r: Option<nat>)
    ensures r.Some? ==> 1 <= r.value <= |schedule| && Contains(schedule[r.value - 1], t)
    ensures r.Some? ==> forall j :: 0 <= j < r.value - 1 ==> !Contains(schedule[j], t)
    ensures r.None? <==> forall j :: 0 <= j < |schedule| ==> !Contains(schedule[j], t)
  {
    FirstFrom(schedule, t, 0)
  }

  /** The loop of `get_lecture_number` from position `k` (0-based) on. */
  function FirstFrom(schedule: seq<Slot>, t: TimeOfDay, k: nat): (r: Option<nat>)
    requires k <= |schedule|
    ensures r.Some? ==> k < r.value <= |schedule| && Contains(schedule[r.value - 1], t)
    ensures r.Some? ==> forall j :: k <= j < r.value - 1 ==> !Contains(schedule[j], t)
    ensures r.None? <==> forall j :: k <= j < |schedule| ==> !Contains(schedule[j], t)
    decreases |schedule| - k
  {
    if k == |schedule| then None
    else if Contains(schedule[k], t) then Some(k + 1)
    else FirstFrom(schedule, t, k + 1)
  }

  /** Any 1-based index whose slot holds `t` and which no earlier slot beats
      is the one the resolver returns: the result is the unique first hit. */
  lemma LectureNumberIsFirstHit(schedule: seq<Slot>, t: TimeOfDay, n: nat)
    requires 1 <= n <= |schedule| && Contains(schedule[n - 1], t)
    requires forall j :: 0 <= j < n - 1 ==> !Contains(schedule[j], t)
    ensures LectureNumber(schedule, t) == Some(n)
  {
  }

  /** Slots are half-open: the end instant of slot `n` does not resolve to `n`. */
  lemma EndIsExcluded(schedule: seq<Slot>, n: nat)
    requires 1 <= n <= |schedule|
    ensures LectureNumber(schedule, schedule[n - 1].end) != Some(n)
  {
  }

  /** Slots in ascending order that do not overlap, as the configuration is
      meant to be. */
  predicate Ascending(schedule: seq<Slot>)
  {
    forall i, j :: 0 <= i < j < |schedule| ==> schedule[i].end <= schedule[j].start
  }

  /** For an ascending table the resolver answers `n` exactly when slot `n`
      holds `t`. */
  lemma AscendingResolvesExactly(schedule: seq<Slot>, t: TimeOfDay, n: nat)
    requires Ascending(schedule)
    requires 1 <= n <= |schedule|
    ensures LectureNumber(schedule, t) == Some(n) <==> Contains(schedule[n - 1], t)
  {
    if Contains(schedule[n - 1], t) {
      forall j | 0 <= j < n - 1
        ensures !Contains(schedule[j], t)
      {
        assert schedule[j].end <= schedule[n - 1].start;
      }
      LectureNumberIsFirstHit(schedule, t, n);
    }
  }
}

=== FILE: store.dfy ===
/** The `users` and `attendance` tables of database/models.py, held in memory
    in primary-key order. Rows are never deleted, so a primary key is the
    1-based insertion position, as SQLite assigns rowids. */
module Store {
  import opened Outcomes
  import opened Schedule

  /** The name a proof video is saved under. The source builds it from the
      participant's Telegram id and the submission moment; the exact
      `strftime` layout is not modelled, only what it is derived from. */
  datatype ProofKey = ProofKey(telegramId: int, at: Timestamp)

  /** A row of `users`. `subgroup` 0 means "not chosen". */
  datatype User = User(
    id: nat,
    telegramId: int,
    lastName: string,
    firstName: string,
    middleName: string,
    subgroup: int)

  /** A row of `attendance`. Every column the table declares non-null is a
      plain (non-optional) field here. */
  datatype Attendance = Attendance(
    id: nat,
    timestamp: Timestamp,
    lectureNumber: int,
    userId: nat,
    challenge: string,
    videoPath: ProofKey)

  datatype Db = Db(users: seq<User>, attendances: seq<Attendance>)

  const EmptyDb := Db([], [])

  /** Constraint violations the database reports on commit. */
  datatype DbError = UniqueViolation | NotNullViolation

  /** The table constraints: primary keys are insertion positions, telegram
      ids are unique, and every record's `user_id` names an existing user. */
  predicate Valid(db: Db)
  {
    && (forall i :: 0 <= i < |db.users| ==> db.users[i].id == i + 1)
    && (forall i, j :: 0 <= i < j < |db.users| ==> db.users[i].telegramId != db.users[j].telegramId)
    && (forall i :: 0 <= i < |db.attendances| ==> db.attendances[i].id == i + 1)
    && (forall i :: 0 <= i < |db.attendances| ==> 1 <= db.attendances[i].userId <= |db.users|)
  }

  lemma EmptyIsValid()
    ensures Valid(EmptyDb)
  {
  }

  predicate Registered(db: Db, telegramId: int)
  {
    exists i :: 0 <= i < |db.users| && db.users[i].telegramId == telegramId
  }

  /** The position of the first user with the given telegram id, scanning
      from position `k`. */
  function IndexFrom(users: seq<User>, telegramId: int, k: nat): (r: Option<nat>)
    requires k <= |users|
    ensures r.Some? ==> k <= r.value < |users| && users[r.value].telegramId == telegramId
    ensures r.Some? ==> forall j :: k <= j < r.value ==> users[j].telegramId != telegramId
    ensures r.None? <==> forall j :: k <= j < |users| ==> users[j].telegramId != telegramId
    decreases |users| - k
  {
    if k == |users| then None
    else if users[k].telegramId == telegramId then Some(k)
    else IndexFrom(users, telegramId, k + 1)
  }

  /** `query(User).filter_by(telegram_id=...).first()` as a position. */
  function UserIndex(db: Db, telegramId: int): (r: Option<nat>)
    ensures r.Some? ==> r.value < |db.users| && db.users[r.value].telegramId == telegramId
    ensures r.None? <==> !Registered(db, telegramId)
    ensures Valid(db) && r.Some? ==> forall j :: 0 <= j < |db.users| && j != r.value ==> db.users[j].telegramId != telegramId
  {
    IndexFrom(db.users, telegramId, 0)
  }

  /** The lookup finds position `i` when it is the first with that id. */
  lemma UserIndexAt(db: Db, telegramId: int, i: nat)
    requires i < |db.users| && db.users[i].telegramId == telegramId
    requires forall j :: 0 <= j < i ==> db.users[j].telegramId != telegramId
    ensures UserIndex(db, telegramId) == Some(i)
  {
    var r := IndexFrom(db.users, telegramId, 0);
    assert r.Some?;
  }

  /** `query(User).filter_by(telegram_id=...).first()`. */
  function FindUser(db: Db, telegramId: int): (r: Option<User>)
    ensures r.Some? ==> r.value in db.users && r.value.telegramId == telegramId
    ensures r.None? <==> !Registered(db, telegramId)
    ensures Valid(db) && r.Some? ==> r.value.id >= 1 && db.users[r.value.id - 1] == r.value
  {
    match UserIndex(db, telegramId)
    case None => None
    case Some(i) => Some(db.users[i])
  }

  /** Adding a `User` and committing: the row gets the next primary key and
      the column default subgroup 0; a telegram id already present violates
      the unique constraint and nothing is written. */
  function InsertUser(db: Db, telegramId: int, lastName: string, firstName: string, middleName: string)
    : (r: Result<Db, DbError>)
    ensures r.Err? <==> Registered(db, telegramId)
    ensures r.Ok? ==> r.value.attendances == db.attendances
    ensures r.Ok? ==> |r.value.users| == |db.users| + 1 && r.value.users[..|db.users|] == db.users
    ensures r.Ok? ==> FindUser(r.value, telegramId)
                      == Some(User(|db.users| + 1, telegramId, lastName, firstName, middleName, 0))
    ensures r.Ok? && Valid(db) ==> Valid(r.value)
  {
    if Registered(db, telegramId) then Err(UniqueViolation)
    else
      var u := User(|db.users| + 1, telegramId, lastName, firstName, middleName, 0);
      var db' := db.(users := db.users + [u]);
      assert IndexFrom(db'.users, telegramId, 0) == Some(|db.users|) by {
        assert forall j :: 0 <= j < |db.users| ==> db'.users[j].telegramId != telegramId;
      }
      Ok(db')
  }

  /** Adding an `Attendance` and committing: a missing lecture number violates
      the column's NOT NULL constraint and nothing is written; otherwise
      exactly one record is appended with the next primary key. */
  function InsertAttendance(
    db: Db, timestamp: Timestamp, lectureNumber: Option<int>, userId: nat, challenge: string, videoPath: ProofKey)
    : (r: Result<Db, DbError>)
    ensures r.Err? <==> lectureNumber.None?
    ensures r.Ok? ==> r.value.users == db.users
    ensures r.Ok? ==> r.value.attendances
                      == db.attendances + [Attendance(|db.attendances| + 1, timestamp, lectureNumber.value, userId, challenge, videoPath)]
    ensures r.Ok? && Valid(db) && 1 <= userId <= |db.users| ==> Valid(r.value)
  {
    match lectureNumber
    case None => Err(NotNullViolation)
    case Some(n) =>
      Ok(db.(attendances := db.attendances + [Attendance(|db.attendances| + 1, timestamp, n, userId, challenge, videoPath)]))
  }

  /** The records of one user, in table order. */
  function RecordsOf(records: seq<Attendance>, userId: nat): (r: seq<Attendance>)
    ensures forall k :: 0 <= k < |r| ==> r[k].userId == userId && r[k] in records
    ensures forall k :: 0 <= k < |records| && records[k].userId == userId ==> records[k] in r
  {
    if |records| == 0 then []
    else
      var rest := RecordsOf(records[1..], userId);
      assert forall k :: 1 <= k < |records| ==> records[k] == records[1..][k - 1];
      if records[0].userId == userId then [records[0]] + rest else rest
  }

  predicate IdsAscending(records: seq<Attendance>)
  {
    forall i, j :: 0 <= i < j < |records| ==> records[i].id < records[j].id
  }

  /** `User.attendances`: the user's records ordered by record id. */
  function UserAttendances(db: Db, user: User): (r: seq<Attendance>)
    ensures forall k :: 0 <= k < |r| ==> r[k].userId == user.id && r[k] in db.attendances
    ensures forall k :: 0 <= k < |db.attendances| && db.attendances[k].userId == user.id ==> db.attendances[k] in r
    ensures Valid(db) ==> IdsAscending(r)
  {
    var r := RecordsOf(db.attendances, user.id);
    assert Valid(db) ==> IdsAscending(r) by {
      if Valid(db) {
        FilterKeepsOrder(db.attendances, user.id);
      }
    }
    r
  }

  /** Filtering keeps records in the order of their ids. */
  lemma {:induction false} FilterKeepsOrder(records: seq<Attendance>, userId: nat)
    requires IdsAscending(records)
    ensures IdsAscending(RecordsOf(records, userId))
  {
    if |records| > 0 {
      var rest := RecordsOf(records[1..], userId);
      assert IdsAscending(records[1..]);
      FilterKeepsOrder(records[1..], userId);
      if records[0].userId == userId {
        forall k | 0 <= k < |rest|
          ensures records[0].id < rest[k].id
        {
          assert rest[k] in records[1..];
        }
      }
    }
  }
}

=== FILE: text.dfy ===
/** The part of Python's string behaviour the bot depends on: `str.split` with
    a one-character separator, `str.join`, `str.upper` as far as it can make a
    string equal to a captcha answer, `int()` on user text and `str()` on
    integers. Strings are sequences of Unicode scalar values, as in Python. */
module Text {
  import opened Outcomes

  /** Number of occurrences of `c` in `s`. */
  function Count(s: string, c: char): nat
  {
    if |s| == 0 then 0 else (if s[0] == c then 1 else 0) + Count(s[1..], c)
  }

  /** Python's `sep.join(parts)`. */
  function Join(parts: seq<string>, sep: string): string
  {
    if |parts| == 0 then ""
    else if |parts| == 1 then parts[0]
    else parts[0] + sep + Join(parts[1..], sep)
  }

  /** Python's `s.split(sep)` for a one-character separator: the pieces
      between consecutive occurrences of `sep`, empty pieces included, so
      there is always one piece more than there are separators. */
  function Split(s: string, sep: char): (r: seq<string>)
    ensures |r| == Count(s, sep) + 1
    ensures forall i :: 0 <= i < |r| ==> sep !in r[i]
  {
    if |s| == 0 then [""]
    else
      var rest := Split(s[1..], sep);
      if s[0] == sep then [""] + rest
      else [[s[0]] + rest[0]] + rest[1..]
  }

  /** Splitting loses nothing: joining the pieces back with the separator
      gives the original text. */
  lemma {:induction false} JoinSplit(s: string, sep: char)
    ensures Join(Split(s, sep), [sep]) == s
  {
    if |s| > 0 {
      var rest := Split(s[1..], sep);
      JoinSplit(s[1..], sep);
      var r := Split(s, sep);
      if s[0] == sep {
        assert r[1..] == rest;
      } else {
        assert r[1..] == rest[1..];
      }
    }
  }

  /** Python's `s.replace(c, by)` for a one-character `c`: every occurrence
      of `c` is replaced by `rep`, everything else is kept in order. */
  function ReplaceChar(s: string, c: char, rep: string): (r: string)
    ensures |rep| == 1 ==> |r| == |s|
    ensures c !in rep ==> c !in r
  {
    if |s| == 0 then "" else (if s[0] == c then rep else [s[0]]) + ReplaceChar(s[1..], c, rep)
  }

  /** `sep.join(s.split(c))` is `s.replace(c, sep)`. */
  lemma {:induction false} JoinSplitReplaces(s: string, c: char, sep: string)
    ensures Join(Split(s, c), sep) == ReplaceChar(s, c, sep)
  {
    if |s| > 0 {
      var rest := Split(s[1..], c);
      JoinSplitReplaces(s[1..], c, sep);
      if s[0] == c {
        assert ([""] + rest)[1..] == rest;
      } else {
        JoinPrefixHead([s[0]], rest, sep);
      }
    }
  }

  /** Text put in front of the first piece comes out in front of the join. */
  lemma JoinPrefixHead(h: string, parts: seq<string>, sep: string)
    requires |parts| > 0
    ensures Join([h + parts[0]] + parts[1..], sep) == h + Join(parts, sep)
  {
    var p := [h + parts[0]] + parts[1..];
    if |parts| > 1 {
      assert p[1..] == parts[1..];
    }
  }

  /** A text without the separator is a single piece. */
  lemma {:induction false} SplitWithoutSeparator(p: string, sep: char)
    requires sep !in p
    ensures Split(p, sep) == [p]
  {
    if |p| > 0 {
      SplitWithoutSeparator(p[1..], sep);
      assert [p[0]] + p[1..] == p;
    }
  }

  /** A separator-free prefix followed by the separator becomes the first piece. */
  lemma {:induction false} SplitAfterPiece(p: string, rest: string, sep: char)
    requires sep !in p
    ensures Split(p + [sep] + rest, sep) == [p] + Split(rest, sep)
  {
    var s := p + [sep] + rest;
    if |p| == 0 {
      assert s[1..] == rest;
    } else {
      assert s[1..] == p[1..] + [sep] + rest;
      SplitAfterPiece(p[1..], rest, sep);
      assert [p[0]] + p[1..] == p;
    }
  }

  /** Joining separator-free pieces and splitting again gives the pieces back,
      so `Split` and `Join` are inverse on the texts and piece lists they produce. */
  lemma {:induction false} SplitJoin(parts: seq<string>, sep: char)
    requires |parts| >= 1
    requires forall i :: 0 <= i < |parts| ==> sep !in parts[i]
    ensures Split(Join(parts, [sep]), sep) == parts
  {
    if |parts| == 1 {
      SplitWithoutSeparator(parts[0], sep);
    } else {
      SplitAfterPiece(parts[0], Join(parts[1..], [sep]), sep);
      SplitJoin(parts[1..], sep);
    }
  }

  /** Python's `str.upper()` on one character, as far as it matters when the
      result is compared with a string of ASCII capitals and digits: ASCII
      lower-case letters, and the characters whose full upper-case mapping
      consists of ASCII letters only. Every other character is kept. */
  function UpperChar(c: char): string
  {
    if 'a' <= c <= 'z' then [(c as int - 32) as char]
    else if c == 'ı' then "I"
    else if c == 'ſ' then "S"
    else if c == 'ß' then "SS"
    else if c == 'ﬀ' then "FF"
    else if c == 'ﬁ' then "FI"
    else if c == 'ﬂ' then "FL"
    else if c == 'ﬃ' then "FFI"
    else if c == 'ﬄ' then "FFL"
    else if c == 'ﬅ' || c == 'ﬆ' then "ST"
    else [c]
  }

  /** Python's `s.upper()`, character by character (see `UpperChar`). */
  function Upper(s: string): string
  {
    if |s| == 0 then "" else UpperChar(s[0]) + Upper(s[1..])
  }

  /** ASCII lower-casing: what a participant types when ignoring case. */
  function Lower(s: string): (r: string)
    ensures |r| == |s|
  {
    if |s| == 0 then ""
    else [if 'A' <= s[0] <= 'Z' then (s[0] as int + 32) as char else s[0]] + Lower(s[1..])
  }

  predicate IsAsciiCapitalOrDigit(c: char)
  {
    'A' <= c <= 'Z' || '0' <= c <= '9'
  }

  /** Upper-casing leaves ASCII capitals and digits alone. */
  lemma {:induction false} UpperFixesCapitals(s: string)
    requires forall i :: 0 <= i < |s| ==> IsAsciiCapitalOrDigit(s[i])
    ensures Upper(s) == s
  {
    if |s| > 0 {
      UpperFixesCapitals(s[1..]);
    }
  }

  /** Upper-casing undoes ASCII lower-casing of capitals and digits. */
  lemma {:induction false} UpperOfLower(s: string)
    requires forall i :: 0 <= i < |s| ==> IsAsciiCapitalOrDigit(s[i])
    ensures Upper(Lower(s)) == s
  {
    if |s| > 0 {
      UpperOfLower(s[1..]);
      assert Lower(s)[1..] == Lower(s[1..]);
    }
  }

  predicate IsDigit(c: char)
  {
    '0' <= c <= '9'
  }

  predicate IsDigits(s: string)
  {
    |s| > 0 && forall i :: 0 <= i < |s| ==> IsDigit(s[i])
  }

  function DigitValue(c: char): nat
    requires IsDigit(c)
  {
    c as int - '0' as int
  }

  function DigitChar(d: nat): char
    requires d < 10
  {
    ('0' as int + d) as char
  }

  /** Python's `str(n)` for a non-negative integer: its decimal digits. */
  function NatToString(n: nat): (r: string)
    ensures IsDigits(r)
    ensures r[0] == '0' <==> n == 0
    ensures |r| > 1 ==> r[0] != '0'
  {
    if n < 10 then [DigitChar(n)]
    else
      var front := NatToString(n / 10);
      assert (front + [DigitChar(n % 10)])[0] == front[0];
      front + [DigitChar(n % 10)]
  }

  /** Python's `str(i)` for any integer. */
  function IntToString(i: int): string
  {
    if i < 0 then "-" + NatToString(-i) else NatToString(i)
  }

  /** The number a run of decimal digits denotes (leading zeros allowed). */
  function DigitsValue(s: string): nat
    requires forall i :: 0 <= i < |s| ==> IsDigit(s[i])
  {
    if |s| == 0 then 0 else 10 * DigitsValue(s[..|s| - 1]) + DigitValue(s[|s| - 1])
  }

  /** Reading back the digits `str` writes gives the number. */
  lemma {:induction false} DigitsValueOfNat(n: nat)
    ensures DigitsValue(NatToString(n)) == n
  {
    var s := NatToString(n);
    if n >= 10 {
      assert s[..|s| - 1] == NatToString(n / 10);
      DigitsValueOfNat(n / 10);
    }
  }

  /** The white space `int()` strips around a number, in the ASCII range:
      tab, line feed, vertical tab, form feed, carriage return and space. The
      separators 28 to 31 count as white space for `str.isspace()` but not
      here, so `int()` rejects them. */
  predicate IsSpace(c: char)
  {
    9 <= c as int <= 13 || c == ' '
  }

  function TrimStart(s: string): (r: string)
    ensures |r| <= |s|
    ensures |r| > 0 ==> !IsSpace(r[0])
  {
    if |s| > 0 && IsSpace(s[0]) then TrimStart(s[1..]) else s
  }

  function TrimEnd(s: string): (r: string)
    ensures |r| <= |s|
    ensures |r| > 0 ==> !IsSpace(r[|r| - 1])
  {
    if |s| > 0 && IsSpace(s[|s| - 1]) then TrimEnd(s[..|s| - 1]) else s
  }

  /** Python's `int(s)` on user text: white space around the number is
      ignored, then an optional sign and at least one decimal digit; any other
      text raises ValueError, modelled as `None`. A text without a minus sign
      never yields a negative number. */
  function ParseInt(s: string): (r: Option<int>)
    ensures r.Some? && '-' !in s ==> r.value >= 0
  {
    var t := TrimEnd(TrimStart(s));
    TrimmedHead(s);
    ParseNumber(t)
  }

  /** `int()` after white space is stripped. */
  function ParseNumber(t: string): (r: Option<int>)
    ensures r.Some? && r.value < 0 ==> |t| > 0 && t[0] == '-'
  {
    if |t| > 0 && (t[0] == '+' || t[0] == '-') && IsDigits(t[1..]) then
      var n := DigitsValue(t[1..]);
      Some(if t[0] == '-' then -(n as int) else n as int)
    else if IsDigits(t) then Some(DigitsValue(t) as int)
    else None
  }

  /** What `TrimStart` keeps is the end of the text. */
  lemma {:induction false} TrimStartIsSuffix(s: string)
    ensures TrimStart(s) == s[|s| - |TrimStart(s)|..]
  {
    if |s| > 0 && IsSpace(s[0]) {
      TrimStartIsSuffix(s[1..]);
    }
  }

  /** What `TrimEnd` keeps is the beginning of the text. */
  lemma {:induction false} TrimEndIsPrefix(s: string)
    ensures TrimEnd(s) == s[..|TrimEnd(s)|]
  {
    if |s| > 0 && IsSpace(s[|s| - 1]) {
      TrimEndIsPrefix(s[..|s| - 1]);
    }
  }

  /** Stripping keeps characters of the text: the first one left is the
      first one `TrimStart` kept. */
  lemma TrimmedHead(s: string)
    ensures |TrimEnd(TrimStart(s))| > 0 ==> TrimEnd(TrimStart(s))[0] == s[|s| - |TrimStart(s)|]
  {
    var u := TrimStart(s);
    var t := TrimEnd(u);
    TrimStartIsSuffix(s);
    TrimEndIsPrefix(u);
    if |t| > 0 {
      assert t[0] == u[0];
    }
  }

  predicate AllSpace(s: string)
  {
    forall i :: 0 <= i < |s| ==> IsSpace(s[i])
  }

  lemma {:induction false} TrimStartPadded(pad: string, body: string)
    requires AllSpace(pad)
    requires |body| > 0 && !IsSpace(body[0])
    ensures TrimStart(pad + body) == body
  {
    if |pad| > 0 {
      assert (pad + body)[1..] == pad[1..] + body;
      TrimStartPadded(pad[1..], body);
    } else {
      assert pad + body == body;
    }
  }

  lemma {:induction false} TrimEndPadded(body: string, pad: string)
    requires AllSpace(pad)
    requires |body| > 0 && !IsSpace(body[|body| - 1])
    ensures TrimEnd(body + pad) == body
  {
    if |pad| > 0 {
      assert (body + pad)[..|body + pad| - 1] == body + pad[..|pad| - 1];
      TrimEndPadded(body, pad[..|pad| - 1]);
    } else {
      assert body + pad == body;
    }
  }

  /** What `str()` writes starts and ends with a character that is not
      white space. */
  lemma IntToStringUnpadded(i: int)
    ensures |IntToString(i)| > 0
    ensures !IsSpace(IntToString(i)[0]) && !IsSpace(IntToString(i)[|IntToString(i)| - 1])
  {
    var digits := NatToString(if i < 0 then -i else i);
    assert IsDigits(digits);
    assert !IsSpace(digits[|digits| - 1]);
    if i >= 0 {
      assert !IsSpace(digits[0]);
    }
  }

  /** `int()` without surrounding white space reads back what `str()` writes. */
  lemma ParseNumberOfString(i: int)
    ensures ParseNumber(IntToString(i)) == Some(i)
  {
    var body := IntToString(i);
    if i < 0 {
      assert body[1..] == NatToString(-i);
      DigitsValueOfNat(-i);
    } else {
      DigitsValueOfNat(i);
    }
  }

  /** `int()` reads back what `str()` writes, with or without white space
      around it (as in the text `" 7"` after splitting `"1-4, 7"` on commas). */
  lemma ParseIntOfString(i: int, before: string, after: string)
    requires AllSpace(before) && AllSpace(after)
    ensures ParseInt(before + IntToString(i) + after) == Some(i)
  {
    var body := IntToString(i);
    var s := before + body + after;
    IntToStringUnpadded(i);
    assert s == before + (body + after);
    TrimStartPadded(before, body + after);
    assert TrimStart(s) == body + after;
    TrimEndPadded(body, after);
    assert TrimEnd(TrimStart(s)) == body;
    ParseNumberOfString(i);
    assert ParseInt(s) == ParseNumber(body);
  }

  lemma ParseIntOfBareString(i: int)
    ensures ParseInt(IntToString(i)) == Some(i)
  {
    ParseIntOfString(i, "", "");
    assert "" + IntToString(i) + "" == IntToString(i);
  }
}
